=== FILE: README.md ===
# Speeddial web client: a Dafny model of its calling core

Speeddial is a browser client for calls between six-digit "virtual numbers".
It signals over a socket and carries media through a WebRTC media engine. This
project models the client's calling core as pure Dafny functions and proves
properties about them. The core has three parts:

- **The dial pad** on the home screen (`DialPad`, `dialpad.dfy`). It covers the
  `ddd-ddd` display format, digit entry, backspace and the six-digit guard on
  the call request. It also covers the incoming-call popup and its accept and
  reject buttons.
- **The signalling context** (`SignalingState`, `signaling.dfy`). This is the
  shared call record `{incoming, activeCall, outgoing}`, updated by the six
  relayed call events, plus the page each event opens. It also holds the
  one-shot emit helpers `requestCall`, `acceptCall`, `rejectCall`,
  `cancelCall` and `endCall`.
- **The media session of the call page** (`MediaSession`, `session.dfy`).
  Both call hooks are modelled, with `Variant` selecting the differences.
  Together with its helper modules it covers:
  - joining and leaving the room;
  - the microphone and camera toggles;
  - screen sharing;
  - the remote roster (`Roster`, `roster.dfy`);
  - remote screen-share detection;
  - the call-duration timer (`CallTimer`, `timer.dfy`);
  - active-speaker detection (`SpeakerDetection`, `speaker.dfy`).

Every handler is a pure transition. It returns the next state and the ordered
list of side effects the program performs (`Values.Effect`): socket emits,
navigation and media-engine calls. A handler that ends in an exception sets
`threw`; everything before the throw has still happened.

The media engine's own state is modelled only as far as the hooks rely on it:
`MediaSession.Engine` folds the effects into the set of tracks the engine
publishes for us. Every handler that returns engine effects (join, leave,
the toggles, the share toggle and the remote publish) is proved to keep
`published` equal to that fold. The corrected leave keeps it only from a
session satisfying `Inv`. The remote join, unpublish and departure handlers
emit nothing, and their contracts state that `published` is unchanged.
`MediaSession.Inv` states the consistency the hooks keep between their
refs and the engine:
- nothing is published that the hook does not hold;
- screen tracks are published only while sharing;
- nothing is published without a client;
- remote uids are distinct.

Things the program reads from the outside are parameters. These are:
- for a microphone or camera, whether one is listed and whether creating its
  track succeeds or is refused (`MediaSession.Device`);
- whether the join (user, token, engine) succeeds;
- what the screen-capture prompt returns;
- whether a socket exists;
- the signed-in user;
- each remote track's label;
- the volume reports and the passing of time.

`Values` holds what the parts share: `Option` for `null`, the engine's uids,
payloads and effects, and `Contains` and `NatToString`, which model
`String.prototype.includes` and `${n}`.

## Model

| member | source | states |
|---|---|---|
| Values.ContainsAt | src/hooks/useAgoraCall2.js:84 | `includes` holds exactly when the pattern occurs at some position of the string |
| Values.ParseNatToString | src/hooks/useAgoraCall.js:72 | a numeric uid's text reads back as the uid |
| DialPad.Format | src/app/user/home/page.js:63-70 | the result is well formed (up to three digits, or three digits, a hyphen and up to three more); its digits are the first six digits of the input; it has at most 7 characters; a hyphen can only be at position 3; three digits or fewer come back without a hyphen |
| DialPad.FormattedUnique | src/app/user/home/page.js:63-70 | a well-formed display is determined by its digits |
| DialPad.FormatFixpoint | src/app/user/home/page.js:63-70 | formatting leaves a string unchanged exactly when it is already well formed |
| DialPad.FormatIdempotent | src/app/user/home/page.js:63-70 | formatting twice is formatting once |
| DialPad.DigitsAppend | src/app/user/home/page.js:73-75 | stripping non-digits distributes over concatenation |
| DialPad.DigitClick | src/app/user/home/page.js:72-77 | at six digits a click changes nothing; below six, the clicked digit is appended and the result is well formed; a non-digit adds nothing |
| DialPad.Backspace | src/app/user/home/page.js:79-83 | the result is well formed; its digits are the input's digits without the last one, capped at six; with no digits the display becomes empty |
| DialPad.BackspaceRemovesLastDigit | src/app/user/home/page.js:79-83 | on a well-formed display, backspace removes exactly the last digit |
| DialPad.ClickThenBackspace | src/app/user/home/page.js:72-83 | below six digits, a click followed by a backspace restores the display |
| DialPad.BackspaceThenClick | src/app/user/home/page.js:72-83 | re-entering the digit a backspace removed restores the display |
| DialPad.HandleCall | src/app/user/home/page.js:85-96 | exactly one `call:request` is emitted iff the display has six digits; its keys are `from`, `to` and `fromUser`; `to` is well formed with the same digits; `from` and `fromUser` are the user's fields or undefined |
| DialPad.CallRequestCarriesDisplay | src/app/user/home/page.js:85-96 | the number sent is the number on the display |
| DialPad.OnIncoming | src/app/user/home/page.js:21-25 | an incoming call is stored and the popup shown; the dialled number is kept |
| DialPad.AnswerPayload | src/app/user/home/page.js:98-102 | the answer carries the call id and the caller's virtual number under `callId` and `from` |
| DialPad.HandleAccept | src/app/user/home/page.js:98-108 | accept emits `call:accept` with the answer payload, hides the popup, then opens that call's page |
| DialPad.HandleReject | src/app/user/home/page.js:110-117 | reject emits `call:reject` with the same payload and hides the popup, with no navigation |
| DialPad.HomeInvPreserved | src/app/user/home/page.js:21-25 | the display stays well formed and the popup is shown only with a call to answer, across every home-screen handler |
| SignalingState.Receive | src/context/socketContext.js:32-89 | each event triggers at most one navigation |
| SignalingState.FieldsSurvive | src/context/socketContext.js:32-89 | every field an event does not own (by an independent ownership table) survives it unchanged |
| SignalingState.StoringEvents | src/context/socketContext.js:32-56 | `call:incoming`, `call:accepted` and `call:outgoing` store their payload in their own field; the last two open the call page |
| SignalingState.TerminalEventsClear | src/context/socketContext.js:59-89 | after a rejected, canceled or ended event nothing rings and no call is active; only `call:ended` drops `outgoing`; `call:canceled` does not navigate |
| SignalingState.TerminalIdempotent | src/context/socketContext.js:59-89 | a repeated terminal event, even with another payload, changes nothing more |
| SignalingState.EndedResets | src/context/socketContext.js:81-89 | `call:ended` installs the initial record whatever came before |
| SignalingState.EndedForgetsHistory | src/context/socketContext.js:81-89 | after `call:ended`, the record no longer depends on the state before it, over any later sequence of events |
| SignalingState.RequestCall | src/context/socketContext.js:94-96 | `call:request` carries exactly `from` and `to` |
| SignalingState.SendCallId | src/context/socketContext.js:98-112 | `acceptCall`, `rejectCall`, `cancelCall` and `endCall` each emit their own event carrying exactly the call id |
| SignalingState.SendCallIdInjective | src/context/socketContext.js:94-112 | two call-id emits are equal only for the same helper and the same call id; no call-id emit equals a call request |
| Roster.DefaultName | src/hooks/useAgoraCall2.js:59 | the default name is "User " followed by the uid's text |
| Roster.DefaultNameInjective | src/hooks/useAgoraCall2.js:59 | distinct numeric uids get distinct default names |
| Roster.OnJoined | src/hooks/useAgoraCall.js:47-53 | a known uid leaves the roster unchanged; a new uid is appended with no tracks; afterwards the uid is present |
| Roster.SetTrack | src/hooks/useAgoraCall.js:58-68 | the roster keeps its length and uid order; other uids' entries are unchanged; the uid's entry has its `kind` track replaced and its other track and name kept |
| Roster.OnPublished | src/hooks/useAgoraCall.js:58-68 | publishing never adds or removes an entry, and an unknown uid changes nothing; only the uid's `kind` track is replaced, its other track and name and every other entry are kept |
| Roster.OnUnpublished | src/hooks/useAgoraCall.js:80-99 | the entry stays; only its `kind` track becomes null, its other track and name and every other entry are kept |
| Roster.UnknownUidUnchanged | src/hooks/useAgoraCall.js:80-99 | unpublishing an unknown uid changes nothing |
| Roster.OnLeft | src/hooks/useAgoraCall.js:101-103 | no entry of the departed uid remains, and the roster does not grow |
| Roster.LeftUnknown | src/hooks/useAgoraCall.js:101-103 | the departure of an unknown uid changes nothing |
| Roster.LeftRemovesAt | src/hooks/useAgoraCall.js:101-103 | with distinct uids, a departure removes exactly that uid's entry and keeps the rest in order |
| Roster.LeftSubset | src/hooks/useAgoraCall.js:101-103 | a departure only removes entries |
| Roster.LeftKeepsOthers | src/hooks/useAgoraCall.js:101-103 | every entry of another uid survives a departure |
| Roster.LeftShrinksByOne | src/hooks/useAgoraCall.js:101-103 | with distinct uids, a known uid's departure shrinks the roster by exactly one |
| Roster.LeftKeepsOtherUids | src/hooks/useAgoraCall.js:101-103 | another uid is present after a departure iff it was present before |
| Roster.JoinedKeepsDistinct | src/hooks/useAgoraCall.js:47-53 | a join keeps the uids pairwise distinct |
| Roster.SetTrackKeepsDistinct | src/hooks/useAgoraCall.js:58-68 | a track update keeps the uids pairwise distinct |
| Roster.LeftKeepsDistinct | src/hooks/useAgoraCall.js:101-103 | a departure keeps the uids pairwise distinct |
| Roster.PublishThenUnpublish | src/hooks/useAgoraCall.js:55-99 | publishing and then unpublishing a kind is the same as only unpublishing it |
| MediaSession.InitialInv | src/hooks/useAgoraCall.js:10-23 | the mount state satisfies the session invariant; on mount the audio flag is on and the video flag off |
| MediaSession.JoinChannel | src/hooks/useAgoraCall.js:29-124 | an already joined session is left alone; otherwise a client is created; if the join fails, or the microphone is refused after the room join, the handler throws and the session is not joined, else it is joined; the microphone track is created and published exactly when it is granted and the join succeeds; the audio flag follows the microphone; a failed join or a microphone that is not granted keeps the microphone ref and leaves nothing published; the handlers capture the current remote screen share |
| MediaSession.JoinIdempotent | src/hooks/useAgoraCall.js:29-30 | a join that did not stop at a refused microphone leaves the session joined, and joining a second time then does nothing |
| MediaSession.JoinMatchesEngine | src/hooks/useAgoraCall.js:29-124 | after a join the engine publishes exactly the recorded tracks |
| MediaSession.JoinKeepsInv | src/hooks/useAgoraCall.js:29-124 | a join keeps the session invariant |
| MediaSession.LeaveChannel | src/hooks/useAgoraCall.js:126-157 | leave as written: microphone and camera are released; it throws exactly when a screen capture is held, and then nothing else happens and the session stays joined and published; otherwise the room is left, every flag and the roster are reset, the second hook clears the remote screen share, and the last effect is the navigation home |
| MediaSession.LeaveChannelFixed | src/hooks/useAgoraCall2.js:149-181 | leave with the screen tracks released like the others: it never throws, and afterwards nothing is held, joined or published, all flags are off, and the second hook's remote screen share is cleared |
| MediaSession.LeaveMatchesEngine | src/hooks/useAgoraCall.js:126-157 | after the leave as written, the engine publishes exactly the recorded tracks |
| MediaSession.LeaveFixedMatchesEngine | src/hooks/useAgoraCall2.js:149-181 | after the corrected leave, the engine publishes exactly the recorded tracks |
| MediaSession.LeaveKeepsInv | src/hooks/useAgoraCall.js:126-157 | the corrected leave always keeps the invariant; the leave as written keeps it when no screen capture is held |
| MediaSession.LeaveSignalsEnd | src/hooks/useAgoraCall.js:155 | as written, the peer is sent exactly one `call:end` when a socket exists and no capture is held, and nothing otherwise; there is never a `call:cancel` |
| MediaSession.LeaveFixedSignalsEnd | src/hooks/useAgoraCall2.js:179 | the corrected leave emits exactly one `call:end` iff a socket exists, and no other emit |
| MediaSession.LeaveWhileSharingFails | src/hooks/useAgoraCall.js:137-141 | concrete case: leaving while sharing throws; the session stays joined, shared and published; no `call:end` is sent |
| MediaSession.LeaveFixedTearsDown | src/hooks/useAgoraCall2.js:149-181 | from any consistent session, the corrected leave reaches the mount state (flags off) with nothing published |
| MediaSession.ToggleAudio | src/hooks/useAgoraCall.js:159-179 | with no track and no microphone listed, nothing happens; a refused microphone throws and changes nothing; a granted microphone's track is created and then published (without a client the handler throws); with a track, the flag flips and the engine is told the new flag; the roster, the screen capture and the remote share are untouched |
| MediaSession.ToggleVideo | src/hooks/useAgoraCall.js:181-202 | like the audio toggle for the camera, including the refused case; on first use the first hook also plays the local preview and the second does not |
| MediaSession.ToggleAudioMatchesEngine | src/hooks/useAgoraCall.js:159-179 | after the audio toggle, the engine publishes exactly the recorded tracks |
| MediaSession.ToggleVideoMatchesEngine | src/hooks/useAgoraCall2.js:205-225 | after the video toggle, the engine publishes exactly the recorded tracks |
| MediaSession.TogglesKeepInv | src/hooks/useAgoraCall.js:159-202 | both toggles keep the invariant |
| MediaSession.ToggleTwiceRestores | src/hooks/useAgoraCall.js:172-201 | once a track exists, two toggles restore the session |
| MediaSession.StartScreenShare | src/hooks/useAgoraCall.js:204-259 | a refused capture changes nothing; a started share records the capture, publishes it first and only then unpublishes an existing camera; a stopped share drops the capture and republishes the camera iff it exists; the toggles' flags are untouched |
| MediaSession.ShareMatchesEngine | src/hooks/useAgoraCall.js:204-259 | after a screen-share toggle, the engine publishes exactly the recorded tracks |
| MediaSession.ShareKeepsInv | src/hooks/useAgoraCall.js:204-259 | the screen-share toggle keeps the invariant |
| MediaSession.ShareEndsWithOneVideo | src/hooks/useAgoraCall.js:248-251 | after a screen-share toggle, the camera and the screen video are never both published |
| MediaSession.ShareStartOverlaps | src/hooks/useAgoraCall.js:237-251 | between the two engine calls that start a share, both videos are published |
| MediaSession.StopShareRepublishesCamera | src/hooks/useAgoraCall.js:225-228 | stopping a share republishes an existing camera even when its flag is off, and keeps the flag |
| MediaSession.ShareRoundTrip | src/hooks/useAgoraCall.js:204-259 | from a consistent joined session, starting and then stopping a share leaves no capture and restores what is published, plus the camera when one is held: a camera created before the join, and so never published, is published by the stop |
| MediaSession.RemoteTile | src/hooks/useAgoraCall.js:72 | the tile id is `remote-video-` followed by the uid's text |
| MediaSession.RemoteTileInjective | src/hooks/useAgoraCall.js:72 | distinct numeric uids are played into distinct tiles |
| MediaSession.OnUserJoined | src/hooks/useAgoraCall2.js:51-62 | only the roster changes, by a join with the default name in the second hook and no name in the first |
| MediaSession.OnUserPublished | src/hooks/useAgoraCall2.js:64-97 | subscribe comes first; the roster is updated; the remote screen share is recorded exactly when the hook is the second and the track is a video whose label or uid contains "screen", and is otherwise unchanged; a video is played iff it is present and not such a share; audio is played iff present |
| MediaSession.PublishedMatchesEngine | src/hooks/useAgoraCall2.js:64-97 | after a remote publish, the engine still publishes exactly the recorded tracks |
| MediaSession.OnUserUnpublished | src/hooks/useAgoraCall2.js:99-122 | the kind's track is cleared; the remote screen share is cleared only for a video, and only when the captured share names the uid |
| MediaSession.OnUserLeft | src/hooks/useAgoraCall2.js:124-129 | the entry is dropped; the remote screen share is cleared only when the captured share names the uid |
| MediaSession.JoinedKeepsInv | src/hooks/useAgoraCall2.js:51-62 | a remote join keeps the invariant |
| MediaSession.PublishedKeepsInv | src/hooks/useAgoraCall2.js:64-97 | a remote publish keeps the invariant |
| MediaSession.UnpublishedKeepsInv | src/hooks/useAgoraCall2.js:99-122 | a remote unpublish keeps the invariant |
| MediaSession.LeftKeepsInv | src/hooks/useAgoraCall2.js:124-129 | a remote departure keeps the invariant |
| MediaSession.RosterSameInBothHooks | src/hooks/useAgoraCall2.js:51-129 | both hooks make the same roster changes, apart from names |
| MediaSession.FirstHookIgnoresScreens | src/hooks/useAgoraCall.js:55-103 | the first hook never sets or clears a remote screen share |
| MediaSession.NumericUidScreenByLabel | src/hooks/useAgoraCall2.js:83-84 | for a numeric uid, only the track label can mark a screen share |
| MediaSession.StaleScreenShareNeverCleared | src/hooks/useAgoraCall2.js:99-129 | with handlers registered at the mount-time join, neither `user-unpublished` nor `user-left` ever clears the remote screen share |
| MediaSession.StaleShareSurvivesLeave | src/hooks/useAgoraCall2.js:124-129 | concrete case: a screen share that starts after the join outlives its sharer's departure |
| MediaSession.OnUserUnpublishedFixed | src/hooks/useAgoraCall2.js:99-122 | the corrected handler makes the same roster change as the original and touches only the roster and the remote screen share |
| MediaSession.OnUserLeftFixed | src/hooks/useAgoraCall2.js:124-129 | the corrected handler makes the same roster change as the original and touches only the roster and the remote screen share |
| MediaSession.FixedLeftClearsShare | src/hooks/useAgoraCall2.js:124-129 | corrected: after a departure the share never names the departed uid; it changes iff that uid was sharing |
| MediaSession.FixedUnpublishedClearsShare | src/hooks/useAgoraCall2.js:99-122 | corrected: after a stopped video the share never names that uid; it changes iff that uid was sharing; a stopped audio never touches it |
| CallTimer.Body | src/hooks/useAgoraCall.js:296-312 | the interval runs afterwards iff joined with somebody; starting keeps the count; stopping a running interval resets it to zero |
| CallTimer.Cleanup | src/hooks/useAgoraCall.js:315-320 | the cleanup stops the interval and leaves the count as it is |
| CallTimer.Tick | src/hooks/useAgoraCall.js:301-303 | a running interval adds one second; a stopped one adds nothing |
| CallTimer.Commit | src/hooks/useAgoraCall.js:296-321 | as written, each render with changed dependencies leaves the interval running iff a call is in progress |
| CallTimer.CommitKeepsDuration | src/hooks/useAgoraCall.js:296-321 | as written, no render changes the displayed duration |
| CallTimer.RunNeverResets | src/hooks/useAgoraCall.js:296-321 | as written, over any sequence of renders and seconds the duration never decreases and the interval tracks the dependencies |
| CallTimer.PeerLeavesDurationStays | src/hooks/useAgoraCall2.js:310-331 | concrete case: after three seconds of a call, the peer leaving stops the count but the display keeps showing 3 |
| CallTimer.CommitFixed | src/hooks/useAgoraCall2.js:310-331 | corrected: each render with changed dependencies leaves the interval running iff a call is in progress |
| CallTimer.FixedCommitResets | src/hooks/useAgoraCall2.js:310-331 | corrected: a render keeps the count while a call is in progress and shows zero otherwise |
| CallTimer.RunFixedKeepsInv | src/hooks/useAgoraCall2.js:310-331 | corrected: over any run, the interval tracks the dependencies and the display is zero whenever no call is in progress |
| CallTimer.PeerLeavesDurationResetsFixed | src/hooks/useAgoraCall2.js:310-331 | corrected: the same call shows zero once the peer leaves |
| SpeakerDetection.HandleVolumes | src/hooks/useAgoraCall.js:36-45 | handling the report entry by entry agrees with the whole-report reading: the last loud uid speaks, with one reset scheduled per loud entry |
| SpeakerDetection.LastLoudIsLast | src/hooks/useAgoraCall2.js:38-49 | the reported speaker is a loud entry with no loud entry after it; no speaker means no loud entry |
| SpeakerDetection.QuietReportIgnored | src/hooks/useAgoraCall2.js:38-49 | a report with nobody above level 10 changes nothing |
| SpeakerDetection.LoudReportSetsSpeaker | src/hooks/useAgoraCall2.js:38-49 | the last loud entry's uid becomes the speaker and a reset is scheduled |
| SpeakerDetection.ReportKeepsResets | src/hooks/useAgoraCall2.js:43-45 | reports only append resets, each due one second after the report |
| SpeakerDetection.ReportDoesNotExtend | src/hooks/useAgoraCall2.js:43-45 | a due reset clears the speaker whatever was reported since; talking on does not postpone it |
| SpeakerDetection.ReportKeepsInv | src/hooks/useAgoraCall2.js:38-49 | a report keeps the reset bookkeeping consistent |
| SpeakerDetection.ElapseKeepsInv | src/hooks/useAgoraCall2.js:43-45 | the passing of time keeps the reset bookkeeping consistent |
| SpeakerDetection.ClearedWithinDelay | src/hooks/useAgoraCall2.js:43-45 | one second without reports always clears the speaker |

## Left out

- Media-engine internals are not modelled. Subscription, playback, device
  enumeration and the engine's own checks appear only as effects or as input
  flags. This includes the engine refusing a second video publish or a
  publish before the join completes.
- Asynchronous interleaving is not modelled. Each handler runs to completion
  or to its throw as one step, so concurrent `await`s are not interleaved.
- Token fetching, reading the user from local storage, and a missing signed-in
  user are folded into the `joinOk` input of `JoinChannel`.
- Toasts and console logging are not modelled, because they do not change
  state.
- A null socket on the home screen is not modelled: `HandleCall`,
  `HandleAccept` and `HandleReject` assume the socket exists. A null socket
  is modelled only where the code checks for it (`if (socket) endCall`).
- The `user:online` announcement and socket connection set-up are left out,
  because they are network set-up outside the core.
- The dial pad's keyboard listener is left out. It forwards `0`–`9` and
  Backspace to the same handlers, which are modelled.
- Logout and the presentational components are not part of this model. This
  includes the call page's hang-up button, which calls `leaveChannel` without
  awaiting it and then sends `cancelCall` or `endCall` itself.
- React's `useState` batching is not modelled. Each handler's state writes
  are applied together.
- Unmount is left out. Its cleanup stops the timer and calls `leaveChannel`,
  which is modelled.
- SpeakerDetection.Volume: the level is a mathematical real, not a
  floating-point number.
- MediaSession.JoinChannel: a failure to read the user, fetch the token or
  join the room is one outcome, whose only effect is creating the client. A
  room join that fails after the token was fetched is not told apart from a
  token failure. A refused microphone is modelled on its own: it rejects
  after the room join, so its effects include `JoinRoom`.
- MediaSession.StartScreenShare: capture failures other than a refusal are
  not distinguished.
- MediaSession.ShareEndsWithOneVideo: stated only for the screen-share toggle.
  The camera toggle's first use can publish the camera during a share. That
  is a separate behaviour of the program that this model does not restrict.

## Findings

| source | as written | input that shows it | evidently intended | confidence | as-written member | corrected member |
|---|---|---|---|---|---|---|
| src/hooks/useAgoraCall.js:296-321 | In both hooks, React runs the previous run's cleanup before each re-run of the timer effect. That cleanup nulls `callTimerRef`, so the body's stop branch never runs and `setCallDuration(0)` is never called | joined with one peer for three seconds, then the peer leaves (`remoteUsers.length` 1 → 0) | the display returns to 0 when no call is in progress | high; not executed | CallTimer.PeerLeavesDurationStays | CallTimer.RunFixedKeepsInv |
| src/hooks/useAgoraCall.js:137-141 | In both hooks, `screenTrack.current` is always an array, so `screenTrack.current.stop()` throws a TypeError. The room is never left, the state is not reset, and the hook never sends `call:end` (the call page's hang-up button still sends its own `call:end` or `call:cancel`) | leave the call while a screen share is running | each screen track is stopped and closed like the others, and the leave completes | high; not executed | MediaSession.LeaveWhileSharingFails | MediaSession.LeaveFixedTearsDown |
| src/hooks/useAgoraCall2.js:99-129 | the `user-unpublished` and `user-left` handlers read the `remoteScreenShare` captured when they were registered at the mount-time join. That value is null, so the share is never cleared | a remote screen share starts after the join, and then its sharer leaves | the share is cleared when its owner stops the video or leaves | high; not executed | MediaSession.StaleShareSurvivesLeave | MediaSession.FixedLeftClearsShare |

=== FILE: dialpad.dfy ===
/**
  The home screen's dial pad: the number being dialled (`to`), its display
  format `ddd-ddd`, digit entry, backspace, the six-digit guard before a call
  request is emitted, and the accept / reject buttons of the incoming-call
  popup.
 */
module DialPad {
  import opened Values

  /** A virtual number has exactly this many digits. */
  const NumberLength: nat := 6

  /** The hyphen goes after this many digits. */
  const GroupLength: nat := 3

  predicate AllDigits(s: string) {
    forall i :: 0 <= i < |s| ==> IsDigit(s[i])
  }

  /** `s.replace(/\D/g, "")`: the digit characters of `s`, in order. */
  function Digits(s: string): (r: string)
    ensures |r| <= |s|
    ensures AllDigits(r)
  {
    if |s| == 0 then ""
    else (if IsDigit(s[0]) then [s[0]] else []) + Digits(s[1..])
  }

  /** `s.slice(0, n)`. */
  function Take(s: string, n: nat): (r: string)
    ensures |r| == if |s| <= n then |s| else n
    ensures r == s[..|r|]
  {
    if |s| <= n then s else s[..n]
  }

  /** `s.slice(0, -1)`: everything but the last character; "" stays "". */
  function DropLast(s: string): (r: string)
    ensures |s| == 0 ==> r == ""
    ensures |s| > 0 ==> |r| == |s| - 1 && r == s[..|s| - 1]
  {
    if |s| == 0 then "" else s[..|s| - 1]
  }

  lemma {:induction false} DigitsAppend(a: string, b: string)
    ensures Digits(a + b) == Digits(a) + Digits(b)
    decreases |a|
  {
    if |a| == 0 {
      assert a + b == b;
    } else {
      var head := if IsDigit(a[0]) then [a[0]] else [];
      assert (a + b)[0] == a[0];
      assert (a + b)[1..] == a[1..] + b;
      assert Digits(a + b) == head + Digits(a[1..] + b);
      DigitsAppend(a[1..], b);
      assert Digits(a) == head + Digits(a[1..]);
      assert head + (Digits(a[1..]) + Digits(b)) == (head + Digits(a[1..])) + Digits(b);
    }
  }

  /** Stripping non-digits leaves a string of digits alone, and only those. */
  lemma {:induction false} DigitsIdentity(s: string)
    ensures Digits(s) == s <==> AllDigits(s)
    decreases |s|
  {
    if |s| > 0 {
      DigitsIdentity(s[1..]);
      if !IsDigit(s[0]) {
        assert |Digits(s)| <= |s[1..]|;
      }
    }
  }

  /** What the display shows: either up to three digits, or three digits, a
      hyphen and one to three more digits. */
  predicate IsFormatted(s: string) {
    || (|s| <= GroupLength && AllDigits(s))
    || (GroupLength + 2 <= |s| <= NumberLength + 1 && s[GroupLength] == '-'
        && AllDigits(s[..GroupLength]) && AllDigits(s[GroupLength + 1..]))
  }

  lemma DigitsOfHyphenated(p: string, q: string)
    requires AllDigits(p) && AllDigits(q)
    ensures Digits(p + "-" + q) == p + q
  {
    assert Digits("-") == "" by {
      assert "-"[1..] == "";
    }
    DigitsIdentity(p);
    DigitsAppend(p, "-");
    assert Digits(p + "-") == p;
    DigitsIdentity(q);
    DigitsAppend(p + "-", q);
  }

  lemma DigitsOfFormatted(s: string)
    requires IsFormatted(s)
    ensures |s| <= GroupLength ==> Digits(s) == s
    ensures |s| > GroupLength ==> Digits(s) == s[..GroupLength] + s[GroupLength + 1..]
    ensures |Digits(s)| <= GroupLength <==> |s| <= GroupLength
    ensures |Digits(s)| <= NumberLength
  {
    if |s| <= GroupLength {
      DigitsIdentity(s);
    } else {
      var p, q := s[..GroupLength], s[GroupLength + 1..];
      assert s == p + "-" + q;
      DigitsOfHyphenated(p, q);
    }
  }

  /** A formatted string is determined by its digits. */
  lemma FormattedUnique(a: string, b: string)
    requires IsFormatted(a) && IsFormatted(b)
    requires Digits(a) == Digits(b)
    ensures a == b
  {
    DigitsOfFormatted(a);
    DigitsOfFormatted(b);
    if |a| > GroupLength {
      var d := Digits(a);
      assert a[..GroupLength] == d[..GroupLength] && b[..GroupLength] == d[..GroupLength];
      assert a[GroupLength + 1..] == d[GroupLength..] && b[GroupLength + 1..] == d[GroupLength..];
      assert a == a[..GroupLength] + "-" + a[GroupLength + 1..];
      assert b == b[..GroupLength] + "-" + b[GroupLength + 1..];
    }
  }

  /** `formatVirtualNumber`: keep the first six digits and put a hyphen after
      the third when there are more than three. */
  function Format(value: string): (r: string)
    ensures IsFormatted(r)
    ensures Digits(r) == Take(Digits(value), NumberLength)
    ensures |r| <= NumberLength + 1
    ensures forall i :: 0 <= i < |r| && r[i] == '-' ==> i == GroupLength
    ensures |Digits(value)| <= GroupLength ==> r == Digits(value)
  {
    var digits := Take(Digits(value), NumberLength);
    var p1 := Take(digits, GroupLength);
    var p2 := if |digits| <= GroupLength then "" else digits[GroupLength..];
    var r := if |digits| > GroupLength then p1 + "-" + p2 else p1;
    assert IsFormatted(r) && Digits(r) == digits by {
      if |digits| > GroupLength {
        assert r[..GroupLength] == p1 && r[GroupLength + 1..] == p2;
        DigitsOfFormatted(r);
        assert digits == p1 + p2;
      } else {
        DigitsIdentity(digits);
      }
    }
    r
  }

  /** Formatting a value that is already formatted returns it unchanged, and
      only formatted values are left unchanged. */
  lemma FormatFixpoint(s: string)
    ensures Format(s) == s <==> IsFormatted(s)
  {
    if IsFormatted(s) {
      DigitsOfFormatted(s);
      FormattedUnique(Format(s), s);
    }
  }

  /** `formatVirtualNumber` is idempotent. */
  lemma FormatIdempotent(value: string)
    ensures Format(Format(value)) == Format(value)
  {
    FormatFixpoint(Format(value));
  }

  /** `handleDigitClick`: below six digits, append the clicked digit and
      reformat; at six digits nothing changes. */
  function DigitClick(to: string, digit: char): (r: string)
    ensures |Digits(to)| >= NumberLength ==> r == to
    ensures |Digits(to)| < NumberLength ==> IsFormatted(r)
    ensures |Digits(to)| < NumberLength && IsDigit(digit) ==> Digits(r) == Digits(to) + [digit]
    ensures |Digits(to)| < NumberLength && !IsDigit(digit) ==> Digits(r) == Digits(to)
  {
    var digits := Digits(to);
    if |digits| < NumberLength then
      DigitsAppend(digits, [digit]);
      DigitsIdentity(digits);
      Format(digits + [digit])
    else
      to
  }

  /** `handleBackspace`: drop the last digit and reformat. */
  function Backspace(to: string): (r: string)
    ensures IsFormatted(r)
    ensures Digits(to) == "" ==> r == ""
    ensures Digits(r) == Take(DropLast(Digits(to)), NumberLength)
  {
    var newDigits := DropLast(Digits(to));
    DigitsIdentity(newDigits);
    Format(newDigits)
  }

  /** On a formatted number backspace removes exactly the last digit. */
  lemma BackspaceRemovesLastDigit(to: string)
    requires IsFormatted(to)
    ensures Digits(Backspace(to)) == DropLast(Digits(to))
  {
    DigitsOfFormatted(to);
  }

  /** A digit click below six digits followed by a backspace restores the
      number. */
  lemma ClickThenBackspace(to: string, digit: char)
    requires IsFormatted(to) && |Digits(to)| < NumberLength && IsDigit(digit)
    ensures Backspace(DigitClick(to, digit)) == to
  {
    var clicked := DigitClick(to, digit);
    assert Digits(clicked) == Digits(to) + [digit];
    assert DropLast(Digits(clicked)) == Digits(to);
    FormattedUnique(Backspace(clicked), to);
  }

  /** Clicking the digit a backspace removed restores the number. */
  lemma BackspaceThenClick(to: string)
    requires IsFormatted(to) && Digits(to) != ""
    ensures DigitClick(Backspace(to), Digits(to)[|Digits(to)| - 1]) == to
  {
    var d := Digits(to);
    var back := Backspace(to);
    BackspaceRemovesLastDigit(to);
    DigitsOfFormatted(to);
    var again := DigitClick(back, d[|d| - 1]);
    ClickRestoresDigits(back, d);
    FormattedUnique(again, to);
  }

  lemma ClickRestoresDigits(back: string, d: string)
    requires 0 < |d| <= NumberLength && AllDigits(d)
    requires Digits(back) == d[..|d| - 1]
    ensures Digits(DigitClick(back, d[|d| - 1])) == d
  {
    assert IsDigit(d[|d| - 1]);
    assert d[..|d| - 1] + [d[|d| - 1]] == d;
  }

  /** The signed-in user read from storage. */
  datatype User = User(callingNumber: string, username: string)

  /** The Call button is enabled exactly when six digits have been entered. */
  predicate CallEnabled(to: string) {
    |Digits(to)| == NumberLength
  }

  /** `user?.field`: undefined when nobody is signed in. */
  function CallingNumberOf(user: Option<User>): Option<string> {
    if user.Some? then Some(user.value.callingNumber) else None
  }

  function UsernameOf(user: Option<User>): Option<string> {
    if user.Some? then Some(user.value.username) else None
  }

  /** `handleCall`: emit one `call:request` when exactly six digits are
      entered, nothing otherwise. */
  function HandleCall(to: string, user: Option<User>): (effects: seq<Effect>)
    ensures |effects| <= 1
    ensures |effects| == 1 <==> CallEnabled(to)
    ensures |effects| == 1 ==>
      && effects[0].Emit?
      && effects[0].event == "call:request"
      && effects[0].payload.Keys == {"from", "to", "fromUser"}
      && effects[0].payload["to"].Some?
      && IsFormatted(effects[0].payload["to"].value)
      && Digits(effects[0].payload["to"].value) == Digits(to)
      && effects[0].payload["from"] == CallingNumberOf(user)
      && effects[0].payload["fromUser"] == UsernameOf(user)
  {
    var digits := Digits(to);
    if |digits| != NumberLength then []
    else
      DigitsIdentity(digits);
      [Emit("call:request", map[
        "from" := CallingNumberOf(user),
        "to" := Some(Format(digits)),
        "fromUser" := UsernameOf(user)])]
  }

  /** The number sent in a call request is the number on the display. */
  lemma CallRequestCarriesDisplay(to: string, user: Option<User>)
    requires IsFormatted(to) && CallEnabled(to)
    ensures HandleCall(to, user)[0].payload["to"] == Some(to)
  {
    FormattedUnique(HandleCall(to, user)[0].payload["to"].value, to);
  }

  /** The home screen's state: the dialled number and the incoming-call popup. */
  datatype Home = Home(to: string, incomingCall: Option<Payload>, showPopup: bool)

  const InitialHome := Home("", None, false)

  /** The popup is only ever shown with an incoming call to answer, and the
      display always holds a formatted number. */
  predicate HomeInv(h: Home) {
    IsFormatted(h.to) && (h.showPopup ==> h.incomingCall.Some?)
  }

  /** The home screen's own `call:incoming` listener. */
  function OnIncoming(h: Home, data: Payload): (r: Home)
    ensures r.showPopup && r.incomingCall == Some(data)
    ensures r.to == h.to
  {
    h.(incomingCall := Some(data), showPopup := true)
  }

  /** The payload both popup buttons send back. */
  function AnswerPayload(call: Payload): (m: map<string, Option<string>>)
    ensures m.Keys == {"callId", "from"}
    ensures m["callId"] == Some(call.callId)
    ensures m["from"] == call.callerVirtualNumber
  {
    map["callId" := Some(call.callId), "from" := call.callerVirtualNumber]
  }

  /** `handleAccept`: answer, hide the popup, open the call page. */
  function HandleAccept(h: Home): (r: (Home, seq<Effect>))
    requires h.incomingCall.Some?
    ensures r.0 == h.(showPopup := false)
    ensures |r.1| == 2
    ensures r.1[0].Emit? && r.1[0].event == "call:accept"
    ensures r.1[0].payload == AnswerPayload(h.incomingCall.value)
    ensures r.1[1] == Navigate(CallPath(h.incomingCall.value.callId))
  {
    var call := h.incomingCall.value;
    (h.(showPopup := false), [Emit("call:accept", AnswerPayload(call)), Navigate(CallPath(call.callId))])
  }

  /** `handleReject`: refuse and hide the popup; the page stays. */
  function HandleReject(h: Home): (r: (Home, seq<Effect>))
    requires h.incomingCall.Some?
    ensures r.0 == h.(showPopup := false)
    ensures |r.1| == 1
    ensures r.1[0].Emit? && r.1[0].event == "call:reject"
    ensures r.1[0].payload == AnswerPayload(h.incomingCall.value)
    ensures forall e :: e in r.1 ==> !e.Navigate?
  {
    (h.(showPopup := false), [Emit("call:reject", AnswerPayload(h.incomingCall.value))])
  }

  /** Every home-screen operation keeps the screen's invariant. */
  lemma HomeInvPreserved(h: Home, data: Payload, digit: char, user: Option<User>)
    requires HomeInv(h)
    ensures HomeInv(InitialHome)
    ensures HomeInv(OnIncoming(h, data))
    ensures HomeInv(h.(to := DigitClick(h.to, digit)))
    ensures HomeInv(h.(to := Backspace(h.to)))
    ensures h.incomingCall.Some? ==> HomeInv(HandleAccept(h).0) && HomeInv(HandleReject(h).0)
  {
  }
}

=== FILE: roster.dfy ===
/**
  The remote roster of a call: the list of `{uid, videoTrack, audioTrack[, name]}`
  entries the media-engine events `user-joined`, `user-published`,
  `user-unpublished` and `user-left` maintain, in join order.
 */
module Roster {
  import opened Values

  /** A remote track handed over by the engine; `trackLabel` is what
      `getTrackLabel()` reports. */
  datatype RemoteTrack = RemoteTrack(id: nat, trackLabel: string)

  /** One roster entry. `name` is absent in the first hook's entries. */
  datatype RemoteUser = RemoteUser(uid: Uid, videoTrack: Option<RemoteTrack>, audioTrack: Option<RemoteTrack>, name: Option<string>)

  function TrackOf(u: RemoteUser, kind: Kind): Option<RemoteTrack> {
    match kind
    case Video => u.videoTrack
    case Audio => u.audioTrack
  }

  function OtherKind(kind: Kind): (o: Kind)
    ensures o != kind
  {
    match kind
    case Video => Audio
    case Audio => Video
  }

  /** The uids of the roster, in roster order. */
  function Uids(r: seq<RemoteUser>): (ids: seq<Uid>)
    ensures |ids| == |r|
    ensures forall i :: 0 <= i < |r| ==> ids[i] == r[i].uid
  {
    seq(|r|, i requires 0 <= i < |r| => r[i].uid)
  }

  /** No uid appears twice. */
  predicate Distinct(r: seq<RemoteUser>) {
    forall i, j :: 0 <= i < j < |r| ==> r[i].uid != r[j].uid
  }

  /** The default name the second hook gives a newcomer. */
  function DefaultName(uid: Uid): (name: string)
    ensures StartsWith(name, "User ") && name[|"User "|..] == UidText(uid)
  {
    "User " + UidText(uid)
  }

  /** Distinct numeric uids get distinct default names. */
  lemma DefaultNameInjective(a: nat, b: nat)
    ensures DefaultName(NumUid(a)) == DefaultName(NumUid(b)) ==> a == b
  {
    if DefaultName(NumUid(a)) == DefaultName(NumUid(b)) {
      assert NatToString(a) == DefaultName(NumUid(a))[|"User "|..];
      ParseNatToString(a);
      ParseNatToString(b);
    }
  }

  /** `user-joined`: append an entry without tracks unless the uid is already
      present. */
  function OnJoined(r: seq<RemoteUser>, uid: Uid, name: Option<string>): (r': seq<RemoteUser>)
    ensures uid in Uids(r) ==> r' == r
    ensures uid !in Uids(r) ==> r' == r + [RemoteUser(uid, None, None, name)]
    ensures uid in Uids(r')
  {
    if uid in Uids(r) then r
    else
      var r' := r + [RemoteUser(uid, None, None, name)];
      assert Uids(r')[|r|] == uid;
      r'
  }

  /** `u` with its `kind` track replaced, all else kept. */
  function WithTrack(u: RemoteUser, kind: Kind, t: Option<RemoteTrack>): (v: RemoteUser)
    ensures TrackOf(v, kind) == t && TrackOf(v, OtherKind(kind)) == TrackOf(u, OtherKind(kind))
    ensures v.uid == u.uid && v.name == u.name
  {
    match kind
    case Video => u.(videoTrack := t)
    case Audio => u.(audioTrack := t)
  }

  /** The roster update shared by `user-published` (with the new track) and
      `user-unpublished` (with `null`): every entry of that uid gets its
      `kind` field replaced. */
  function SetTrack(r: seq<RemoteUser>, uid: Uid, kind: Kind, t: Option<RemoteTrack>): (r': seq<RemoteUser>)
    ensures |r'| == |r| && Uids(r') == Uids(r)
    ensures forall i :: 0 <= i < |r| && r[i].uid != uid ==> r'[i] == r[i]
    ensures forall i :: 0 <= i < |r| && r[i].uid == uid ==>
      TrackOf(r'[i], kind) == t && TrackOf(r'[i], OtherKind(kind)) == TrackOf(r[i], OtherKind(kind)) && r'[i].name == r[i].name
  {
    seq(|r|, i requires 0 <= i < |r| => if r[i].uid == uid then WithTrack(r[i], kind, t) else r[i])
  }

  /** `user-published`: attach the track to the known entry; an unknown uid is
      not added. */
  function OnPublished(r: seq<RemoteUser>, uid: Uid, kind: Kind, t: Option<RemoteTrack>): (r': seq<RemoteUser>)
    ensures uid !in Uids(r) ==> r' == r
    ensures Uids(r') == Uids(r)
    ensures forall i :: 0 <= i < |r| && r[i].uid != uid ==> r'[i] == r[i]
    ensures forall i :: 0 <= i < |r| && r[i].uid == uid ==>
      TrackOf(r'[i], kind) == t && TrackOf(r'[i], OtherKind(kind)) == TrackOf(r[i], OtherKind(kind)) && r'[i].name == r[i].name
  {
    SetTrack(r, uid, kind, t)
  }

  /** `user-unpublished`: clear that one field of the entry; the entry stays. */
  function OnUnpublished(r: seq<RemoteUser>, uid: Uid, kind: Kind): (r': seq<RemoteUser>)
    ensures Uids(r') == Uids(r)
    ensures forall i :: 0 <= i < |r'| && r'[i].uid == uid ==> TrackOf(r'[i], kind) == None
    ensures forall i :: 0 <= i < |r| && r[i].uid != uid ==> r'[i] == r[i]
    ensures forall i :: 0 <= i < |r| && r[i].uid == uid ==>
      TrackOf(r'[i], OtherKind(kind)) == TrackOf(r[i], OtherKind(kind)) && r'[i].name == r[i].name
  {
    SetTrack(r, uid, kind, None)
  }

  /** `user-left`: drop every entry of that uid, keeping the others in order. */
  function OnLeft(r: seq<RemoteUser>, uid: Uid): (r': seq<RemoteUser>)
    ensures |r'| <= |r|
    ensures forall i :: 0 <= i < |r'| ==> r'[i].uid != uid
    decreases |r|
  {
    if |r| == 0 then []
    else (if r[0].uid == uid then [] else [r[0]]) + OnLeft(r[1..], uid)
  }

  lemma UnknownUidUnchanged(r: seq<RemoteUser>, uid: Uid)
    requires uid !in Uids(r)
    ensures SetTrack(r, uid, Video, None) == r && SetTrack(r, uid, Audio, None) == r
  {
  }

  /** Leaving with an uid nobody has changes nothing. */
  lemma {:induction false} LeftUnknown(r: seq<RemoteUser>, uid: Uid)
    requires forall k :: 0 <= k < |r| ==> r[k].uid != uid
    ensures OnLeft(r, uid) == r
    decreases |r|
  {
    if |r| > 0 {
      assert forall k :: 0 <= k < |r| - 1 ==> r[1..][k] == r[k + 1];
      LeftUnknown(r[1..], uid);
      assert OnLeft(r, uid) == [r[0]] + r[1..];
    }
  }

  lemma DistinctTail(r: seq<RemoteUser>)
    requires Distinct(r) && |r| > 0
    ensures Distinct(r[1..])
    ensures r[0].uid !in Uids(r[1..])
  {
    var tail := r[1..];
    forall i, j | 0 <= i < j < |tail|
      ensures tail[i].uid != tail[j].uid
    {
      assert tail[i] == r[i + 1] && tail[j] == r[j + 1];
    }
  }

  /** With distinct uids, leaving removes exactly the entry at the uid's
      position and keeps the rest in order. */
  lemma {:induction false} LeftRemovesAt(r: seq<RemoteUser>, uid: Uid, k: nat)
    requires Distinct(r) && k < |r| && r[k].uid == uid
    ensures OnLeft(r, uid) == r[..k] + r[k + 1..]
    decreases |r|
  {
    DistinctTail(r);
    var tail := r[1..];
    if k == 0 {
      LeftUnknown(tail, uid);
      assert OnLeft(r, uid) == [] + OnLeft(tail, uid);
    } else {
      assert r[0].uid != uid;
      assert OnLeft(r, uid) == [r[0]] + OnLeft(tail, uid);
      assert tail[k - 1] == r[k];
      LeftRemovesAt(tail, uid, k - 1);
      assert tail[..k - 1] == r[1..k];
      assert tail[k..] == r[k + 1..];
      assert [r[0]] + (r[1..k] + r[k + 1..]) == r[..k] + r[k + 1..];
    }
  }

  /** A departure only ever removes entries. */
  lemma {:induction false} LeftSubset(r: seq<RemoteUser>, uid: Uid, u: RemoteUser)
    requires u in OnLeft(r, uid)
    ensures u in r
    decreases |r|
  {
    var head := if r[0].uid == uid then [] else [r[0]];
    assert OnLeft(r, uid) == head + OnLeft(r[1..], uid);
    if u != r[0] {
      assert u in OnLeft(r[1..], uid);
      LeftSubset(r[1..], uid, u);
    }
  }

  /** Entries of other uids survive a departure. */
  lemma {:induction false} LeftKeepsOthers(r: seq<RemoteUser>, uid: Uid, u: RemoteUser)
    requires u in r && u.uid != uid
    ensures u in OnLeft(r, uid)
    decreases |r|
  {
    if r[0] == u {
      assert OnLeft(r, uid) == [u] + OnLeft(r[1..], uid);
    } else {
      assert u in r[1..];
      LeftKeepsOthers(r[1..], uid, u);
      assert OnLeft(r, uid) == (if r[0].uid == uid then [] else [r[0]]) + OnLeft(r[1..], uid);
    }
  }

  /** Every roster event keeps the uids pairwise distinct. */
  lemma JoinedKeepsDistinct(r: seq<RemoteUser>, uid: Uid, name: Option<string>)
    requires Distinct(r)
    ensures Distinct(OnJoined(r, uid, name))
  {
    if uid !in Uids(r) {
      var j := OnJoined(r, uid, name);
      forall i | 0 <= i < |r|
        ensures j[i].uid != uid
      {
        assert Uids(r)[i] == r[i].uid;
      }
    }
  }

  lemma SetTrackKeepsDistinct(r: seq<RemoteUser>, uid: Uid, kind: Kind, t: Option<RemoteTrack>)
    requires Distinct(r)
    ensures Distinct(SetTrack(r, uid, kind, t))
  {
    var p := SetTrack(r, uid, kind, t);
    forall i | 0 <= i < |p|
      ensures p[i].uid == r[i].uid
    {
      assert Uids(p)[i] == Uids(r)[i];
    }
  }

  lemma {:induction false} LeftKeepsDistinct(r: seq<RemoteUser>, uid: Uid)
    requires Distinct(r)
    ensures Distinct(OnLeft(r, uid))
    decreases |r|
  {
    if |r| > 0 {
      var tail := OnLeft(r[1..], uid);
      LeftKeepsDistinct(r[1..], uid);
      if r[0].uid != uid {
        forall m | 0 <= m < |tail|
          ensures tail[m].uid != r[0].uid
        {
          LeftSubset(r[1..], uid, tail[m]);
        }
        var l := [r[0]] + tail;
        assert OnLeft(r, uid) == l;
        forall i, j | 0 <= i < j < |l|
          ensures l[i].uid != l[j].uid
        {
          if i > 0 {
            assert l[i] == tail[i - 1] && l[j] == tail[j - 1];
          }
        }
      }
    }
  }

  /** With distinct uids a known uid's departure shrinks the roster by one. */
  lemma LeftShrinksByOne(r: seq<RemoteUser>, uid: Uid)
    requires Distinct(r) && uid in Uids(r)
    ensures |OnLeft(r, uid)| == |r| - 1
  {
    var k :| 0 <= k < |r| && Uids(r)[k] == uid;
    LeftRemovesAt(r, uid, k);
  }

  /** Only `user-left` removes anyone, and only the uid that left. */
  lemma LeftKeepsOtherUids(r: seq<RemoteUser>, uid: Uid, other: Uid)
    requires other != uid
    ensures other in Uids(OnLeft(r, uid)) <==> other in Uids(r)
  {
    var l := OnLeft(r, uid);
    if other in Uids(r) {
      var k :| 0 <= k < |r| && Uids(r)[k] == other;
      LeftKeepsOthers(r, uid, r[k]);
      var m :| 0 <= m < |l| && l[m] == r[k];
      assert Uids(l)[m] == other;
    }
    if other in Uids(l) {
      var m :| 0 <= m < |l| && Uids(l)[m] == other;
      LeftSubset(r, uid, l[m]);
      var k :| 0 <= k < |r| && r[k] == l[m];
      assert Uids(r)[k] == other;
    }
  }

  /** Publishing and then unpublishing the same kind is the same as only
      unpublishing it. */
  lemma PublishThenUnpublish(r: seq<RemoteUser>, uid: Uid, kind: Kind, t: Option<RemoteTrack>)
    ensures OnUnpublished(OnPublished(r, uid, kind, t), uid, kind) == OnUnpublished(r, uid, kind)
  {
    var a := OnUnpublished(OnPublished(r, uid, kind, t), uid, kind);
    var b := OnUnpublished(r, uid, kind);
    forall i | 0 <= i < |r|
      ensures a[i] == b[i]
    {
      var x := r[i];
      if x.uid == uid {
        assert a[i] == WithTrack(WithTrack(x, kind, t), kind, None);
        assert b[i] == WithTrack(x, kind, None);
      }
    }
  }
}

=== FILE: session.dfy ===
/**
  The per-call media session of the call page hooks (`useAgoraCall` and
  `useAgoraCall2`): local audio, camera and screen tracks, the room membership,
  the remote roster and the remote screen share, with every handler a pure
  transition that returns the next session and the ordered side effects the
  original performs (engine calls, socket emits, navigation).

  The two hooks share almost all of their code; `Variant` selects the
  differences: the second names newcomers, recognises remote screen shares,
  renders no local preview and clears the remote screen share on leave.
 */
module MediaSession {
  import opened Values
  import Roster
  import SignalingState

  /** `First` is `useAgoraCall`, `Second` is `useAgoraCall2`. */
  datatype Variant = First | Second

  /** What `createScreenVideoTrack` yields: a refusal (it throws), a video
      track, or a video track with the system audio. */
  datatype ScreenCapture = CaptureDenied | CaptureVideo | CaptureVideoAndAudio

  /** What asking for a microphone or camera yields: no such device is
      listed (`checkDevice` is false), a device is listed but creating its
      track rejects (the user refused permission), or the track is created. */
  datatype Device = NoDevice | Refused | Granted

  /** The `remoteScreenShare` state of the second hook. */
  datatype RemoteScreen = RemoteScreen(uid: Uid, track: Roster.RemoteTrack)

  /** The hook's refs and state. `client` is `client.current != null`, `mic` /
      `camera` are `localAudioTrack.current` / `localVideoTrack.current`,
      `screen` is `screenTrack.current` ([] for null), `published` is what the
      engine currently publishes for us, and `seenScreenShare` is the value of
      `remoteScreenShare` the engine handlers closed over when they were
      registered. */
  datatype Session = Session(
    client: bool,
    joined: bool,
    mic: bool,
    audioEnabled: bool,
    camera: bool,
    videoEnabled: bool,
    screen: seq<LocalTrack>,
    sharing: bool,
    published: set<LocalTrack>,
    roster: seq<Roster.RemoteUser>,
    remoteScreenShare: Option<RemoteScreen>,
    seenScreenShare: Option<RemoteScreen>)

  /** The state on mount: note the audio flag starts `true`. */
  const Initial := Session(false, false, false, true, false, false, [], false, {}, [], None, None)

  /** The outcome of one handler: the next session, its effects in order, and
      whether it ended by throwing (the async function rejects; what ran
      before the throw has happened). */
  datatype Step = Step(next: Session, effects: seq<Effect>, threw: bool)

  function TrackSet(ts: seq<LocalTrack>): (r: set<LocalTrack>)
    ensures forall t :: t in r <==> t in ts
  {
    set t | t in ts
  }

  /** The engine's view of what we publish after one effect. */
  function Apply(p: set<LocalTrack>, e: Effect): set<LocalTrack> {
    match e
    case CreateClient => {}
    case LeaveRoom => {}
    case Publish(ts) => p + TrackSet(ts)
    case Unpublish(ts) => p - TrackSet(ts)
    case _ => p
  }

  /** The engine's view of what we publish after a run of effects. */
  function Engine(p: set<LocalTrack>, es: seq<Effect>): set<LocalTrack>
    decreases |es|
  {
    if |es| == 0 then p else Engine(Apply(p, es[0]), es[1..])
  }

  lemma {:induction false} EngineAppend(p: set<LocalTrack>, a: seq<Effect>, b: seq<Effect>)
    ensures Engine(p, a + b) == Engine(Engine(p, a), b)
    decreases |a|
  {
    if |a| == 0 {
      assert a + b == b;
    } else {
      assert (a + b)[0] == a[0];
      assert (a + b)[1..] == a[1..] + b;
      EngineAppend(Apply(p, a[0]), a[1..], b);
    }
  }

  /** Effects that do not touch what is published. */
  predicate Neutral(e: Effect) {
    !e.CreateClient? && !e.LeaveRoom? && !e.Publish? && !e.Unpublish?
  }

  lemma {:induction false} EngineNeutral(p: set<LocalTrack>, es: seq<Effect>)
    requires forall k :: 0 <= k < |es| ==> Neutral(es[k])
    ensures Engine(p, es) == p
    decreases |es|
  {
    if |es| > 0 {
      EngineNeutral(p, es[1..]);
    }
  }

  lemma EngineOne(p: set<LocalTrack>, e: Effect)
    ensures Engine(p, [e]) == Apply(p, e)
  {
    assert [e][1..] == [];
  }

  lemma EngineTwo(p: set<LocalTrack>, e: Effect, f: Effect)
    ensures Engine(p, [e, f]) == Apply(Apply(p, e), f)
  {
    assert [e, f] == [e] + [f];
    EngineAppend(p, [e], [f]);
    EngineOne(p, e);
    EngineOne(Apply(p, e), f);
  }

  function ScreenTracks(c: ScreenCapture): (ts: seq<LocalTrack>)
    requires !c.CaptureDenied?
    ensures ValidScreen(ts) && ts != []
  {
    if c.CaptureVideo? then [ScreenVideo] else [ScreenVideo, ScreenAudio]
  }

  /** What `screenTrack.current` can hold: nothing, or the video track
      followed by the optional audio track. */
  predicate ValidScreen(ts: seq<LocalTrack>) {
    ts == [] || ts == [ScreenVideo] || ts == [ScreenVideo, ScreenAudio]
  }

  /** The consistency the handlers keep between the hook's refs and the engine:
      nothing is published that the hook does not hold, screen tracks are
      published only while sharing, nothing is published without a client,
      sharing means a live screen capture, and roster uids are distinct. */
  predicate Inv(s: Session) {
    && (Mic in s.published ==> s.mic)
    && (Camera in s.published ==> s.camera)
    && (ScreenVideo in s.published ==> ScreenVideo in s.screen)
    && (ScreenAudio in s.published ==> ScreenAudio in s.screen)
    && (!s.sharing ==> ScreenVideo !in s.published && ScreenAudio !in s.published)
    && (!s.client ==> s.published == {})
    && (s.sharing ==> s.client && s.screen != [])
    && (s.joined ==> s.client)
    && ValidScreen(s.screen)
    && Roster.Distinct(s.roster)
  }

  lemma InitialInv()
    ensures Inv(Initial) && !Initial.joined && Initial.audioEnabled && !Initial.videoEnabled
  {
  }

  /** `joinChannel`: unless already joined, create a client (registering the
      engine handlers, which capture the current `remoteScreenShare`), join the
      room, and publish a fresh microphone track when a microphone exists.
      `joinOk` is false when reading the user, fetching the token or joining
      fails; the function then rejects after creating the client. A refused
      microphone rejects after the room join, before `joined` is set. */
  function JoinChannel(s: Session, callId: string, mic: Device, joinOk: bool): (r: Step)
    ensures s.joined ==> r == Step(s, [], false)
    ensures !s.joined ==> r.next.client && r.next.seenScreenShare == s.remoteScreenShare
    ensures !s.joined ==> (r.threw <==> !joinOk || mic.Refused?) && (r.next.joined <==> joinOk && !mic.Refused?)
    ensures !s.joined && joinOk && !mic.Refused? ==>
      r.next.audioEnabled == mic.Granted? && (Mic in r.next.published <==> mic.Granted?)
    ensures !s.joined && joinOk && mic.Granted? ==> r.next.mic
    ensures !s.joined && !mic.Granted? ==> r.next.mic == s.mic && r.next.published == {}
    ensures !s.joined && !joinOk ==> r.next.mic == s.mic && r.next.published == {}
    ensures !s.joined && joinOk ==> JoinRoom(callId) in r.effects
    ensures r.next.camera == s.camera && r.next.videoEnabled == s.videoEnabled
    ensures r.next.roster == s.roster && r.next.screen == s.screen && r.next.remoteScreenShare == s.remoteScreenShare
  {
    if s.joined then Step(s, [], false)
    else
      var c := s.(client := true, published := {}, seenScreenShare := s.remoteScreenShare);
      if !joinOk then Step(c, [CreateClient], true)
      else if mic.Granted? then
        Step(c.(mic := true, published := {Mic}, audioEnabled := true, joined := true),
             [CreateClient, JoinRoom(callId), Publish([Mic])], false)
      else if mic.Refused? then Step(c, [CreateClient, JoinRoom(callId)], true)
      else
        Step(c.(audioEnabled := false, joined := true), [CreateClient, JoinRoom(callId)], false)
  }

  /** `leaveChannel` as written: release the microphone and camera, then call
      `stop()` on `screenTrack.current`, which is always an array and so
      throws whenever a screen capture is held; otherwise leave the room,
      reset everything, emit `call:end` when a socket exists and go home. */
  function LeaveChannel(s: Session, callId: string, hasSocket: bool, v: Variant): (r: Step)
    ensures !r.next.mic && !r.next.camera
    ensures r.threw <==> s.screen != []
    ensures r.threw ==>
      && r.next.joined == s.joined && r.next.published == s.published
      && forall k :: 0 <= k < |r.effects| ==> r.effects[k].Release?
    ensures !r.threw ==>
      && !r.next.joined && !r.next.client && r.next.roster == []
      && !r.next.audioEnabled && !r.next.videoEnabled && !r.next.sharing
    ensures !r.threw ==> |r.effects| > 0 && r.effects[|r.effects| - 1] == Navigate(HomePath)
    ensures !r.threw && v.Second? ==> r.next.remoteScreenShare == None
    ensures v.First? || r.threw ==> r.next.remoteScreenShare == s.remoteScreenShare
  {
    var a := if s.mic then [Release([Mic])] else [];
    var c := if s.camera then [Release([Camera])] else [];
    var s1 := s.(mic := false, camera := false);
    if s.screen != [] then Step(s1, a + c, true)
    else
      var l := if s.client then [LeaveRoom] else [];
      var e := if hasSocket then [SignalingState.SendCallId(SignalingState.End, callId)] else [];
      Step(s1.(client := false, published := if s.client then {} else s.published, roster := [], joined := false,
               audioEnabled := false, videoEnabled := false, sharing := false,
               remoteScreenShare := if v.Second? then None else s.remoteScreenShare),
           a + c + l + e + [Navigate(HomePath)], false)
  }

  /** `leaveChannel` as evidently intended: the screen tracks are released one
      by one like the others, so leaving always completes. */
  function LeaveChannelFixed(s: Session, callId: string, hasSocket: bool, v: Variant): (r: Step)
    ensures !r.threw
    ensures !r.next.mic && !r.next.camera && r.next.screen == []
    ensures !r.next.joined && !r.next.client && r.next.roster == [] && r.next.published == {}
    ensures !r.next.audioEnabled && !r.next.videoEnabled && !r.next.sharing
    ensures v.Second? ==> r.next.remoteScreenShare == None
  {
    var a := if s.mic then [Release([Mic])] else [];
    var c := if s.camera then [Release([Camera])] else [];
    var sc := if s.screen != [] then [Release(s.screen)] else [];
    var l := if s.client then [LeaveRoom] else [];
    var e := if hasSocket then [SignalingState.SendCallId(SignalingState.End, callId)] else [];
    Step(s.(mic := false, camera := false, screen := [], client := false, published := {}, roster := [],
            joined := false, audioEnabled := false, videoEnabled := false, sharing := false,
            remoteScreenShare := if v.Second? then None else s.remoteScreenShare),
         a + c + sc + l + e + [Navigate(HomePath)], false)
  }

  /** `toggleAudio`: create and publish the microphone track on first use (if a
      microphone exists), otherwise flip the existing track's enabled flag. A
      refused microphone rejects before anything is assigned. */
  function ToggleAudio(s: Session, mic: Device): (r: Step)
    ensures !s.mic && mic.NoDevice? ==> r == Step(s, [], false)
    ensures !s.mic && mic.Refused? ==> r == Step(s, [], true)
    ensures !s.mic && mic.Granted? ==> r.next.mic && (r.threw <==> !s.client)
    ensures !s.mic && mic.Granted? && s.client ==> r.next.audioEnabled && Mic in r.next.published && r.effects == [Publish([Mic])]
    ensures s.mic ==>
      && r.next == s.(audioEnabled := !s.audioEnabled) && !r.threw
      && r.effects == [SetTrackEnabled(Mic, r.next.audioEnabled)]
    ensures r.next.roster == s.roster && r.next.screen == s.screen && r.next.remoteScreenShare == s.remoteScreenShare
  {
    if !s.mic then
      if mic.NoDevice? then Step(s, [], false)
      else if mic.Refused? then Step(s, [], true)
      else if !s.client then Step(s.(mic := true), [], true)
      else Step(s.(mic := true, published := s.published + {Mic}, audioEnabled := true), [Publish([Mic])], false)
    else
      Step(s.(audioEnabled := !s.audioEnabled), [SetTrackEnabled(Mic, !s.audioEnabled)], false)
  }

  /** The element the first hook renders the local camera preview into. */
  const LocalVideoElement := "local-video"

  /** `toggleVideo`: like `toggleAudio` for the camera; on first use the first
      hook also starts the local preview, the second does not. */
  function ToggleVideo(s: Session, camera: Device, v: Variant): (r: Step)
    ensures !s.camera && camera.NoDevice? ==> r == Step(s, [], false)
    ensures !s.camera && camera.Refused? ==> r == Step(s, [], true)
    ensures !s.camera && camera.Granted? ==> r.next.camera && (r.threw <==> !s.client)
    ensures !s.camera && camera.Granted? && s.client ==>
      && r.next.videoEnabled && Camera in r.next.published
      && |r.effects| > 0 && r.effects[0] == Publish([Camera])
      && (PlayLocal(LocalVideoElement) in r.effects <==> v.First?)
    ensures s.camera ==>
      && r.next == s.(videoEnabled := !s.videoEnabled) && !r.threw
      && r.effects == [SetTrackEnabled(Camera, r.next.videoEnabled)]
    ensures r.next.roster == s.roster && r.next.screen == s.screen && r.next.remoteScreenShare == s.remoteScreenShare
  {
    if !s.camera then
      if camera.NoDevice? then Step(s, [], false)
      else if camera.Refused? then Step(s, [], true)
      else if !s.client then Step(s.(camera := true), [], true)
      else
        var preview := if v.First? then [PlayLocal(LocalVideoElement)] else [];
        Step(s.(camera := true, published := s.published + {Camera}, videoEnabled := true), [Publish([Camera])] + preview, false)
    else
      Step(s.(videoEnabled := !s.videoEnabled), [SetTrackEnabled(Camera, !s.videoEnabled)], false)
  }

  /** `startScreenShare`: when sharing, unpublish and release the capture and
      republish the camera if it exists; otherwise capture the screen, publish
      it, and only then unpublish the camera. A refused capture is caught and
      changes nothing. */
  function StartScreenShare(s: Session, capture: ScreenCapture): (r: Step)
    ensures !s.sharing && capture.CaptureDenied? ==> r == Step(s, [], false)
    ensures !s.sharing && !capture.CaptureDenied? ==> !r.threw && r.next.screen == ScreenTracks(capture)
    ensures !s.sharing && !capture.CaptureDenied? && s.client ==>
      && r.next.sharing
      && |r.effects| > 0 && r.effects[0] == Publish(ScreenTracks(capture))
      && (s.camera ==> r.effects == [Publish(ScreenTracks(capture)), Unpublish([Camera])])
      && (!s.camera ==> r.effects == [Publish(ScreenTracks(capture))])
    ensures s.sharing && s.client ==>
      && !r.next.sharing && r.next.screen == [] && !r.threw
      && (s.camera <==> Publish([Camera]) in r.effects)
    ensures r.next.camera == s.camera && r.next.mic == s.mic
    ensures r.next.audioEnabled == s.audioEnabled && r.next.videoEnabled == s.videoEnabled
  {
    if s.sharing then
      if s.screen != [] && !s.client then Step(s, [], true)
      else
        var stop := if s.screen != [] then [Unpublish(s.screen), Release(s.screen)] else [];
        var s1 := s.(screen := [], sharing := false, published := s.published - TrackSet(s.screen));
        if !s.camera then Step(s1, stop, false)
        else if !s.client then Step(s1, stop, true)
        else Step(s1.(published := s1.published + {Camera}), stop + [Publish([Camera])], false)
    else if capture.CaptureDenied? then Step(s, [], false)
    else
      var tracks := ScreenTracks(capture);
      if !s.client then Step(s.(screen := tracks), [], false)
      else if s.camera then
        Step(s.(screen := tracks, sharing := true, published := (s.published + TrackSet(tracks)) - {Camera}),
             [Publish(tracks), Unpublish([Camera])], false)
      else
        Step(s.(screen := tracks, sharing := true, published := s.published + TrackSet(tracks)), [Publish(tracks)], false)
  }

  /** The element a remote participant's video is played into. */
  function RemoteTile(uid: Uid): (element: string)
    ensures StartsWith(element, "remote-video-") && element[|"remote-video-"|..] == UidText(uid)
  {
    "remote-video-" + UidText(uid)
  }

  /** Distinct numeric uids are played into distinct elements. (A numeric uid
      and a text uid with the same digits share one.) */
  lemma RemoteTileInjective(a: nat, b: nat)
    ensures RemoteTile(NumUid(a)) == RemoteTile(NumUid(b)) ==> a == b
  {
    if RemoteTile(NumUid(a)) == RemoteTile(NumUid(b)) {
      assert NatToString(a) == RemoteTile(NumUid(a))[|"remote-video-"|..];
      ParseNatToString(a);
      ParseNatToString(b);
    }
  }

  /** The second hook's screen-share test: the track label or the uid's text
      contains "screen". */
  predicate IsScreenTrack(uid: Uid, t: Roster.RemoteTrack) {
    Contains(t.trackLabel, "screen") || Contains(UidText(uid), "screen")
  }

  /** `user-joined`. */
  function OnUserJoined(s: Session, uid: Uid, v: Variant): (r: Session)
    ensures r.roster == Roster.OnJoined(s.roster, uid, if v.Second? then Some(Roster.DefaultName(uid)) else None)
    ensures r == s.(roster := r.roster)
  {
    s.(roster := Roster.OnJoined(s.roster, uid, if v.Second? then Some(Roster.DefaultName(uid)) else None))
  }

  /** `user-published`: subscribe, attach the track to a known entry, then
      play it; in the second hook a screen-share video is recorded instead of
      played. `t` is the user's track of that kind after subscribing. */
  function OnUserPublished(s: Session, uid: Uid, kind: Kind, t: Option<Roster.RemoteTrack>, v: Variant): (r: Step)
    ensures !r.threw && |r.effects| > 0 && r.effects[0] == Subscribe(uid, kind)
    ensures r.next.roster == Roster.OnPublished(s.roster, uid, kind, t)
    ensures r.next.remoteScreenShare != s.remoteScreenShare ==>
      v.Second? && kind == Video && t.Some? && IsScreenTrack(uid, t.value) && r.next.remoteScreenShare == Some(RemoteScreen(uid, t.value))
    ensures v.Second? && kind == Video && t.Some? && IsScreenTrack(uid, t.value) ==>
      r.next.remoteScreenShare == Some(RemoteScreen(uid, t.value))
    ensures (PlayRemoteVideo(uid, RemoteTile(uid)) in r.effects) <==>
      kind == Video && t.Some? && !(v.Second? && IsScreenTrack(uid, t.value))
    ensures (PlayRemoteAudio(uid) in r.effects) <==> kind == Audio && t.Some?
    ensures r.next == s.(roster := r.next.roster, remoteScreenShare := r.next.remoteScreenShare)
  {
    var s1 := s.(roster := Roster.OnPublished(s.roster, uid, kind, t));
    var sub := [Subscribe(uid, kind)];
    if kind == Video && t.Some? then
      if v.Second? && IsScreenTrack(uid, t.value) then
        Step(s1.(remoteScreenShare := Some(RemoteScreen(uid, t.value))), sub, false)
      else
        Step(s1, sub + [PlayRemoteVideo(uid, RemoteTile(uid))], false)
    else if kind == Audio && t.Some? then
      Step(s1, sub + [PlayRemoteAudio(uid)], false)
    else
      Step(s1, sub, false)
  }

  /** Whether the second hook's handlers think `uid` is sharing its screen.
      They read the captured value, not the current one. */
  predicate SeenSharing(s: Session, uid: Uid, v: Variant) {
    v.Second? && s.seenScreenShare.Some? && s.seenScreenShare.value.uid == uid
  }

  /** `user-unpublished`: clear one field of the entry. */
  function OnUserUnpublished(s: Session, uid: Uid, kind: Kind, v: Variant): (r: Session)
    ensures r.roster == Roster.OnUnpublished(s.roster, uid, kind)
    ensures r.remoteScreenShare == if kind == Video && SeenSharing(s, uid, v) then None else s.remoteScreenShare
    ensures r == s.(roster := r.roster, remoteScreenShare := r.remoteScreenShare)
  {
    s.(roster := Roster.OnUnpublished(s.roster, uid, kind),
       remoteScreenShare := if kind == Video && SeenSharing(s, uid, v) then None else s.remoteScreenShare)
  }

  /** `user-left`: drop the entry. */
  function OnUserLeft(s: Session, uid: Uid, v: Variant): (r: Session)
    ensures r.roster == Roster.OnLeft(s.roster, uid)
    ensures r.remoteScreenShare == if SeenSharing(s, uid, v) then None else s.remoteScreenShare
    ensures r == s.(roster := r.roster, remoteScreenShare := r.remoteScreenShare)
  {
    s.(roster := Roster.OnLeft(s.roster, uid),
       remoteScreenShare := if SeenSharing(s, uid, v) then None else s.remoteScreenShare)
  }

  // ---------------------------------------------------------------------
  // The engine sees exactly what the effects say.

  lemma JoinMatchesEngine(s: Session, callId: string, mic: Device, joinOk: bool)
    ensures JoinChannel(s, callId, mic, joinOk).next.published == Engine(s.published, JoinChannel(s, callId, mic, joinOk).effects)
  {
    var r := JoinChannel(s, callId, mic, joinOk);
    if !s.joined {
      if !joinOk {
        EngineOne(s.published, CreateClient);
      } else if mic.Granted? {
        assert r.effects == [CreateClient, JoinRoom(callId)] + [Publish([Mic])];
        EngineAppend(s.published, [CreateClient, JoinRoom(callId)], [Publish([Mic])]);
        EngineTwo(s.published, CreateClient, JoinRoom(callId));
        EngineOne({}, Publish([Mic]));
      } else {
        EngineTwo(s.published, CreateClient, JoinRoom(callId));
      }
    }
  }

  lemma ToggleAudioMatchesEngine(s: Session, mic: Device)
    ensures ToggleAudio(s, mic).next.published == Engine(s.published, ToggleAudio(s, mic).effects)
  {
    var r := ToggleAudio(s, mic);
    if |r.effects| == 1 {
      EngineOne(s.published, r.effects[0]);
    }
  }

  lemma ToggleVideoMatchesEngine(s: Session, camera: Device, v: Variant)
    ensures ToggleVideo(s, camera, v).next.published == Engine(s.published, ToggleVideo(s, camera, v).effects)
  {
    var r := ToggleVideo(s, camera, v);
    if |r.effects| == 1 {
      EngineOne(s.published, r.effects[0]);
    } else if |r.effects| == 2 {
      EngineTwo(s.published, r.effects[0], r.effects[1]);
    }
  }

  lemma ShareMatchesEngine(s: Session, capture: ScreenCapture)
    ensures StartScreenShare(s, capture).next.published == Engine(s.published, StartScreenShare(s, capture).effects)
  {
    var r := StartScreenShare(s, capture);
    if s.sharing && !(s.screen != [] && !s.client) {
      var stop := if s.screen != [] then [Unpublish(s.screen), Release(s.screen)] else [];
      var mid := s.published - TrackSet(s.screen);
      assert Engine(s.published, stop) == mid by {
        if s.screen != [] {
          EngineTwo(s.published, Unpublish(s.screen), Release(s.screen));
        }
      }
      if s.camera && s.client {
        EngineAppend(s.published, stop, [Publish([Camera])]);
        EngineOne(mid, Publish([Camera]));
      }
    } else if !s.sharing && !capture.CaptureDenied? && s.client {
      var tracks := ScreenTracks(capture);
      if s.camera {
        EngineTwo(s.published, Publish(tracks), Unpublish([Camera]));
      } else {
        EngineOne(s.published, Publish(tracks));
      }
    }
  }

  /** A remote publish only subscribes and plays: the engine publishes nothing
      new for us. */
  lemma PublishedMatchesEngine(s: Session, uid: Uid, kind: Kind, t: Option<Roster.RemoteTrack>, v: Variant)
    ensures OnUserPublished(s, uid, kind, t, v).next.published == Engine(s.published, OnUserPublished(s, uid, kind, t, v).effects)
  {
    var r := OnUserPublished(s, uid, kind, t, v);
    assert forall k :: 0 <= k < |r.effects| ==> Neutral(r.effects[k]);
    EngineNeutral(s.published, r.effects);
  }

  /** The shape of every leave: engine-neutral releases, at most one
      `leave()`, then engine-neutral emits and navigation. */
  lemma EngineLeave(p: set<LocalTrack>, pre: seq<Effect>, l: seq<Effect>, post: seq<Effect>)
    requires forall k :: 0 <= k < |pre| ==> Neutral(pre[k])
    requires forall k :: 0 <= k < |post| ==> Neutral(post[k])
    requires l == [] || l == [LeaveRoom]
    ensures Engine(p, pre + l + post) == if l == [] then p else {}
  {
    EngineNeutral(p, pre);
    EngineAppend(p, pre, l);
    var q := Engine(p, pre + l);
    if l != [] {
      EngineOne(p, LeaveRoom);
    }
    EngineNeutral(q, post);
    EngineAppend(p, pre + l, post);
  }

  lemma LeaveMatchesEngine(s: Session, callId: string, hasSocket: bool, v: Variant)
    ensures LeaveChannel(s, callId, hasSocket, v).next.published == Engine(s.published, LeaveChannel(s, callId, hasSocket, v).effects)
  {
    var a := if s.mic then [Release([Mic])] else [];
    var c := if s.camera then [Release([Camera])] else [];
    var l := if s.client then [LeaveRoom] else [];
    var e := if hasSocket then [SignalingState.SendCallId(SignalingState.End, callId)] else [];
    var h := [Navigate(HomePath)];
    if s.screen != [] {
      EngineNeutral(s.published, a + c);
    } else {
      assert a + c + l + e + h == (a + c) + l + (e + h);
      EngineLeave(s.published, a + c, l, e + h);
    }
  }

  lemma LeaveFixedMatchesEngine(s: Session, callId: string, hasSocket: bool, v: Variant)
    requires Inv(s)
    ensures LeaveChannelFixed(s, callId, hasSocket, v).next.published == Engine(s.published, LeaveChannelFixed(s, callId, hasSocket, v).effects)
  {
    var a := if s.mic then [Release([Mic])] else [];
    var c := if s.camera then [Release([Camera])] else [];
    var sc := if s.screen != [] then [Release(s.screen)] else [];
    var l := if s.client then [LeaveRoom] else [];
    var e := if hasSocket then [SignalingState.SendCallId(SignalingState.End, callId)] else [];
    var h := [Navigate(HomePath)];
    assert a + c + sc + l + e + h == (a + c + sc) + l + (e + h);
    EngineLeave(s.published, a + c + sc, l, e + h);
  }

  // ---------------------------------------------------------------------
  // The invariant holds in every reachable session.

  lemma JoinKeepsInv(s: Session, callId: string, mic: Device, joinOk: bool)
    requires Inv(s)
    ensures Inv(JoinChannel(s, callId, mic, joinOk).next)
  {
  }

  lemma TogglesKeepInv(s: Session, present: Device, v: Variant)
    requires Inv(s)
    ensures Inv(ToggleAudio(s, present).next)
    ensures Inv(ToggleVideo(s, present, v).next)
  {
  }

  lemma ShareKeepsInv(s: Session, capture: ScreenCapture)
    requires Inv(s)
    ensures Inv(StartScreenShare(s, capture).next)
  {
    if s.sharing {
      assert ScreenVideo in s.screen;
    }
  }

  /** The intended leave always restores the invariant; the leave as written
      does so only when no screen capture is held. */
  lemma LeaveKeepsInv(s: Session, callId: string, hasSocket: bool, v: Variant)
    requires Inv(s)
    ensures Inv(LeaveChannelFixed(s, callId, hasSocket, v).next)
    ensures s.screen == [] ==> Inv(LeaveChannel(s, callId, hasSocket, v).next)
  {
  }

  /** Remote events touch only the roster and the remote screen share. */
  lemma InvFrame(s: Session, roster: seq<Roster.RemoteUser>, share: Option<RemoteScreen>)
    requires Inv(s) && Roster.Distinct(roster)
    ensures Inv(s.(roster := roster, remoteScreenShare := share))
  {
  }

  lemma JoinedKeepsInv(s: Session, uid: Uid, v: Variant)
    requires Inv(s)
    ensures Inv(OnUserJoined(s, uid, v))
  {
    var r := OnUserJoined(s, uid, v);
    Roster.JoinedKeepsDistinct(s.roster, uid, if v.Second? then Some(Roster.DefaultName(uid)) else None);
    InvFrame(s, r.roster, r.remoteScreenShare);
  }

  lemma PublishedKeepsInv(s: Session, uid: Uid, kind: Kind, t: Option<Roster.RemoteTrack>, v: Variant)
    requires Inv(s)
    ensures Inv(OnUserPublished(s, uid, kind, t, v).next)
  {
    var r := OnUserPublished(s, uid, kind, t, v).next;
    Roster.SetTrackKeepsDistinct(s.roster, uid, kind, t);
    InvFrame(s, r.roster, r.remoteScreenShare);
  }

  lemma UnpublishedKeepsInv(s: Session, uid: Uid, kind: Kind, v: Variant)
    requires Inv(s)
    ensures Inv(OnUserUnpublished(s, uid, kind, v))
  {
    var r := OnUserUnpublished(s, uid, kind, v);
    Roster.SetTrackKeepsDistinct(s.roster, uid, kind, None);
    InvFrame(s, r.roster, r.remoteScreenShare);
  }

  lemma LeftKeepsInv(s: Session, uid: Uid, v: Variant)
    requires Inv(s)
    ensures Inv(OnUserLeft(s, uid, v))
  {
    var r := OnUserLeft(s, uid, v);
    Roster.LeftKeepsDistinct(s.roster, uid);
    InvFrame(s, r.roster, r.remoteScreenShare);
  }

  // ---------------------------------------------------------------------
  // Screen sharing.

  /** Never both the camera and the screen video published. */
  predicate AtMostOneVideo(p: set<LocalTrack>) {
    !(Camera in p && ScreenVideo in p)
  }

  /** Toggling the screen share ends with at most one local video published. */
  lemma ShareEndsWithOneVideo(s: Session, capture: ScreenCapture)
    requires Inv(s) && AtMostOneVideo(s.published)
    ensures AtMostOneVideo(StartScreenShare(s, capture).next.published)
  {
    if s.sharing && s.client {
      assert ScreenVideo in s.screen;
    }
  }

  /** Starting a share publishes the screen before unpublishing the camera: in
      between, the engine publishes both videos. */
  lemma ShareStartOverlaps(s: Session, capture: ScreenCapture)
    requires !s.sharing && s.client && !capture.CaptureDenied?
    requires s.camera && Camera in s.published
    ensures var r := StartScreenShare(s, capture);
      && Camera in Engine(s.published, r.effects[..1]) && ScreenVideo in Engine(s.published, r.effects[..1])
      && Camera !in Engine(s.published, r.effects)
  {
    var r := StartScreenShare(s, capture);
    assert r.effects[..1] == [Publish(ScreenTracks(capture))];
    EngineOne(s.published, Publish(ScreenTracks(capture)));
    ShareMatchesEngine(s, capture);
  }

  /** Stopping a share republishes an existing camera even when it is
      disabled. */
  lemma StopShareRepublishesCamera(s: Session, capture: ScreenCapture)
    requires s.sharing && s.client && s.camera
    ensures Camera in StartScreenShare(s, capture).next.published
    ensures StartScreenShare(s, capture).next.videoEnabled == s.videoEnabled
  {
  }

  /** Starting and then stopping a share gives back the publish state from
      before, provided the camera was published if it existed. */
  lemma ShareRoundTrip(s: Session, capture: ScreenCapture, again: ScreenCapture)
    requires Inv(s) && !s.sharing && s.client && !capture.CaptureDenied?
    ensures var back := StartScreenShare(StartScreenShare(s, capture).next, again).next;
      && back.published == s.published + (if s.camera then {Camera} else {})
      && !back.sharing && back.screen == []
    ensures s.camera ==> Camera in s.published ==>
      StartScreenShare(StartScreenShare(s, capture).next, again).next.published == s.published
  {
    var mid := StartScreenShare(s, capture).next;
    var back := StartScreenShare(mid, again).next;
    assert mid.screen == ScreenTracks(capture);
    assert back.published == s.published + (if s.camera then {Camera} else {});
  }

  // ---------------------------------------------------------------------
  // Toggles and join.

  /** With a track in hand a toggle only flips the flag, so two toggles undo
      each other. */
  lemma ToggleTwiceRestores(s: Session, present: Device, present': Device, v: Variant)
    ensures s.mic ==> ToggleAudio(ToggleAudio(s, present).next, present').next == s
    ensures s.camera ==> ToggleVideo(ToggleVideo(s, present, v).next, present', v).next == s
  {
  }

  /** Joining twice is joining once, once the first join got as far as
      `setJoined(true)`; after a refused microphone it did not, and a second
      join starts over. */
  lemma JoinIdempotent(s: Session, callId: string, mic: Device, mic': Device, joinOk': bool)
    ensures var once := JoinChannel(s, callId, mic, true).next;
      && (once.joined <==> s.joined || !mic.Refused?)
      && (once.joined ==> JoinChannel(once, callId, mic', joinOk') == Step(once, [], false))
  {
  }

  // ---------------------------------------------------------------------
  // Leaving.

  function Emits(es: seq<Effect>): (r: seq<Effect>)
    ensures forall k :: 0 <= k < |r| ==> r[k].Emit?
    ensures |r| <= |es|
  {
    if |es| == 0 then [] else (if es[0].Emit? then [es[0]] else []) + Emits(es[1..])
  }

  lemma {:induction false} EmitsAppend(a: seq<Effect>, b: seq<Effect>)
    ensures Emits(a + b) == Emits(a) + Emits(b)
    decreases |a|
  {
    if |a| == 0 {
      assert a + b == b;
    } else {
      assert (a + b)[0] == a[0];
      assert (a + b)[1..] == a[1..] + b;
      EmitsAppend(a[1..], b);
    }
  }

  lemma EmitsOne(e: Effect)
    ensures Emits([e]) == if e.Emit? then [e] else []
  {
    assert [e][1..] == [];
  }

  lemma {:induction false} EmitsNone(es: seq<Effect>)
    requires forall k :: 0 <= k < |es| ==> !es[k].Emit?
    ensures Emits(es) == []
    decreases |es|
  {
    if |es| > 0 {
      EmitsNone(es[1..]);
    }
  }

  /** Emits after a silent prefix are those of the rest. */
  lemma EmitsAfterSilent(pre: seq<Effect>, e: seq<Effect>, h: seq<Effect>)
    requires forall k :: 0 <= k < |pre| ==> !pre[k].Emit?
    requires forall k :: 0 <= k < |h| ==> !h[k].Emit?
    requires e == [] || (|e| == 1 && e[0].Emit?)
    ensures Emits(pre + e + h) == e
  {
    EmitsNone(pre);
    EmitsNone(h);
    EmitsAppend(pre, e);
    EmitsAppend(pre + e, h);
    if e != [] {
      EmitsOne(e[0]);
    }
  }

  /** Leaving emits exactly one `call:end` when a socket exists and nothing
      otherwise; there is no `call:cancel` path. */
  lemma LeaveFixedSignalsEnd(s: Session, callId: string, hasSocket: bool, v: Variant)
    ensures Emits(LeaveChannelFixed(s, callId, hasSocket, v).effects) == if hasSocket then [SignalingState.SendCallId(SignalingState.End, callId)] else []
  {
    var a := if s.mic then [Release([Mic])] else [];
    var c := if s.camera then [Release([Camera])] else [];
    var sc := if s.screen != [] then [Release(s.screen)] else [];
    var l := if s.client then [LeaveRoom] else [];
    var e := if hasSocket then [SignalingState.SendCallId(SignalingState.End, callId)] else [];
    EmitsAfterSilent(a + c + sc + l, e, [Navigate(HomePath)]);
  }

  /** As written, the peer hears `call:end` only when no screen capture is
      held. */
  lemma LeaveSignalsEnd(s: Session, callId: string, hasSocket: bool, v: Variant)
    ensures Emits(LeaveChannel(s, callId, hasSocket, v).effects) == if hasSocket && s.screen == [] then [SignalingState.SendCallId(SignalingState.End, callId)] else []
  {
    var a := if s.mic then [Release([Mic])] else [];
    var c := if s.camera then [Release([Camera])] else [];
    var l := if s.client then [LeaveRoom] else [];
    var e := if hasSocket then [SignalingState.SendCallId(SignalingState.End, callId)] else [];
    if s.screen != [] {
      EmitsNone(a + c);
    } else {
      EmitsAfterSilent(a + c + l, e, [Navigate(HomePath)]);
    }
  }

  /** The defect: leaving while a screen capture is held throws before the
      room is left, so the session stays joined and the peer is never told. */
  lemma LeaveWhileSharingFails()
    ensures var s := Initial.(client := true, joined := true, screen := [ScreenVideo], sharing := true, published := {ScreenVideo});
      && Inv(s)
      && var r := LeaveChannel(s, "c1", true, Second);
      && r.threw && r.next.joined && r.next.sharing && ScreenVideo in r.next.published
      && Emits(r.effects) == []
  {
    var s := Initial.(client := true, joined := true, screen := [ScreenVideo], sharing := true, published := {ScreenVideo});
    LeaveSignalsEnd(s, "c1", true, Second);
  }

  /** The intended leave tears everything down from any session. */
  lemma LeaveFixedTearsDown(s: Session, callId: string, hasSocket: bool, v: Variant)
    requires Inv(s)
    ensures var r := LeaveChannelFixed(s, callId, hasSocket, v).next;
      r.published == {} && r == Initial.(audioEnabled := false, remoteScreenShare := r.remoteScreenShare, seenScreenShare := s.seenScreenShare)
  {
  }

  // ---------------------------------------------------------------------
  // Remote events.

  /** The roster effect of every remote event is the same in both hooks, up
      to the second hook's default names. */
  lemma RosterSameInBothHooks(s: Session, uid: Uid, kind: Kind, t: Option<Roster.RemoteTrack>)
    ensures OnUserPublished(s, uid, kind, t, First).next.roster == OnUserPublished(s, uid, kind, t, Second).next.roster
    ensures OnUserUnpublished(s, uid, kind, First).roster == OnUserUnpublished(s, uid, kind, Second).roster
    ensures OnUserLeft(s, uid, First).roster == OnUserLeft(s, uid, Second).roster
    ensures Roster.Uids(OnUserJoined(s, uid, First).roster) == Roster.Uids(OnUserJoined(s, uid, Second).roster)
  {
    var named := OnUserJoined(s, uid, Second).roster;
    var plain := OnUserJoined(s, uid, First).roster;
    if uid !in Roster.Uids(s.roster) {
      assert forall i :: 0 <= i < |named| ==> named[i].uid == plain[i].uid;
    }
  }

  /** The first hook never records a remote screen share. */
  lemma FirstHookIgnoresScreens(s: Session, uid: Uid, kind: Kind, t: Option<Roster.RemoteTrack>)
    ensures OnUserPublished(s, uid, kind, t, First).next.remoteScreenShare == s.remoteScreenShare
    ensures OnUserUnpublished(s, uid, kind, First).remoteScreenShare == s.remoteScreenShare
    ensures OnUserLeft(s, uid, First).remoteScreenShare == s.remoteScreenShare
  {
  }

  /** A numeric uid never reads as a screen share; only the track label can
      make it one. */
  lemma NumericUidScreenByLabel(n: nat, t: Roster.RemoteTrack)
    ensures IsScreenTrack(NumUid(n), t) <==> Contains(t.trackLabel, "screen")
  {
    DigitsContainNoLetter(UidText(NumUid(n)), "screen", 0);
  }

  /** The handlers read the value captured at join; from the mount state that
      value is null, so `user-unpublished` and `user-left` never clear the
      remote screen share. */
  lemma StaleScreenShareNeverCleared(callId: string, mic: Device, joinOk: bool, s: Session, uid: Uid, kind: Kind, v: Variant)
    requires s.seenScreenShare == JoinChannel(Initial, callId, mic, joinOk).next.seenScreenShare
    ensures OnUserUnpublished(s, uid, kind, v).remoteScreenShare == s.remoteScreenShare
    ensures OnUserLeft(s, uid, v).remoteScreenShare == s.remoteScreenShare
  {
  }

  /** The defect, concretely: a remote screen share that starts after the
      join survives its sharer leaving. */
  lemma StaleShareSurvivesLeave(t: Roster.RemoteTrack)
    requires Contains(t.trackLabel, "screen")
    ensures var s0 := JoinChannel(Initial, "c1", Granted, true).next;
      var s1 := OnUserJoined(s0, NumUid(7), Second);
      var s2 := OnUserPublished(s1, NumUid(7), Video, Some(t), Second).next;
      var s3 := OnUserLeft(s2, NumUid(7), Second);
      && s2.remoteScreenShare == Some(RemoteScreen(NumUid(7), t))
      && s3.remoteScreenShare == Some(RemoteScreen(NumUid(7), t))
      && NumUid(7) !in Roster.Uids(s3.roster)
  {
    var s0 := JoinChannel(Initial, "c1", Granted, true).next;
    var s1 := OnUserJoined(s0, NumUid(7), Second);
    assert s1.roster == [Roster.RemoteUser(NumUid(7), None, None, Some(Roster.DefaultName(NumUid(7))))];
    var s2 := OnUserPublished(s1, NumUid(7), Video, Some(t), Second).next;
    assert Roster.Uids(s2.roster) == [NumUid(7)];
    var s3 := OnUserLeft(s2, NumUid(7), Second);
    Roster.LeftShrinksByOne(s2.roster, NumUid(7));
  }

  /** Whether the remote screen share currently belongs to `uid`, read from
      the current state as the second hook evidently intends. */
  predicate NowSharing(s: Session, uid: Uid, v: Variant) {
    v.Second? && s.remoteScreenShare.Some? && s.remoteScreenShare.value.uid == uid
  }

  /** `user-unpublished` reading the current remote screen share. */
  function OnUserUnpublishedFixed(s: Session, uid: Uid, kind: Kind, v: Variant): (r: Session)
    ensures r.roster == Roster.OnUnpublished(s.roster, uid, kind)
    ensures r == s.(roster := r.roster, remoteScreenShare := r.remoteScreenShare)
  {
    s.(roster := Roster.OnUnpublished(s.roster, uid, kind),
       remoteScreenShare := if kind == Video && NowSharing(s, uid, v) then None else s.remoteScreenShare)
  }

  /** `user-left` reading the current remote screen share. */
  function OnUserLeftFixed(s: Session, uid: Uid, v: Variant): (r: Session)
    ensures r.roster == Roster.OnLeft(s.roster, uid)
    ensures r == s.(roster := r.roster, remoteScreenShare := r.remoteScreenShare)
  {
    s.(roster := Roster.OnLeft(s.roster, uid),
       remoteScreenShare := if NowSharing(s, uid, v) then None else s.remoteScreenShare)
  }

  /** In the second hook the remote screen share never names somebody who has
      left, and nobody else's share is touched. */
  lemma FixedLeftClearsShare(s: Session, uid: Uid)
    ensures var r := OnUserLeftFixed(s, uid, Second).remoteScreenShare;
      (r.Some? ==> r.value.uid != uid) && (r != s.remoteScreenShare <==> NowSharing(s, uid, Second))
  {
    var r := OnUserLeftFixed(s, uid, Second).remoteScreenShare;
    assert r == if NowSharing(s, uid, Second) then None else s.remoteScreenShare;
  }

  /** Likewise for a stopped video; a stopped audio track never clears it. */
  lemma FixedUnpublishedClearsShare(s: Session, uid: Uid)
    ensures var r := OnUserUnpublishedFixed(s, uid, Video, Second).remoteScreenShare;
      (r.Some? ==> r.value.uid != uid) && (r != s.remoteScreenShare <==> NowSharing(s, uid, Second))
    ensures OnUserUnpublishedFixed(s, uid, Audio, Second).remoteScreenShare == s.remoteScreenShare
  {
    var r := OnUserUnpublishedFixed(s, uid, Video, Second).remoteScreenShare;
    assert r == if NowSharing(s, uid, Second) then None else s.remoteScreenShare;
  }
}

=== FILE: signaling.dfy ===
/**
  The signalling context: the shared `callState` record that the relayed
  socket events update, the page each event navigates to, and the one-shot
  emit helpers the rest of the client calls.
 */
module SignalingState {
  import opened Values

  /** `{incoming, activeCall, outgoing?}`: `outgoing` is `None` while the
      record has no such field at all. */
  datatype CallState = CallState(incoming: Option<Payload>, activeCall: Option<Payload>, outgoing: Option<Payload>)

  /** The record the provider starts from, and the one `call:ended` installs. */
  const Cleared := CallState(None, None, None)

  /** The relayed events the provider listens to. */
  datatype Relayed =
    | CallIncoming(data: Payload)
    | CallAccepted(data: Payload)
    | CallOutgoing(data: Payload)
    | CallRejected(data: Payload)
    | CallCanceled(data: Payload)
    | CallEnded(data: Payload)

  predicate IsTerminal(e: Relayed) {
    e.CallRejected? || e.CallCanceled? || e.CallEnded?
  }

  /** The listener of one relayed event: the new record and the navigation
      it triggers (at most one). */
  function Receive(s: CallState, e: Relayed): (r: (CallState, seq<Effect>))
    ensures |r.1| <= 1
    ensures forall k :: 0 <= k < |r.1| ==> r.1[k].Navigate?
  {
    match e
    case CallIncoming(data) => (s.(incoming := Some(data)), [])
    case CallAccepted(data) => (s.(activeCall := Some(data)), [Navigate(CallPath(data.callId))])
    case CallOutgoing(data) => (s.(outgoing := Some(data)), [Navigate(CallPath(data.callId))])
    case CallRejected(_) => (s.(incoming := None, activeCall := None), [Navigate(HomePath)])
    case CallCanceled(_) => (s.(incoming := None, activeCall := None), [])
    case CallEnded(_) => (Cleared, [Navigate(HomePath)])
  }

  /** Which fields of the record an event may change, stated independently
      of `Receive`. */
  predicate MayChangeIncoming(e: Relayed) {
    !e.CallAccepted? && !e.CallOutgoing?
  }

  predicate MayChangeActive(e: Relayed) {
    !e.CallIncoming? && !e.CallOutgoing?
  }

  predicate MayChangeOutgoing(e: Relayed) {
    e.CallOutgoing? || e.CallEnded?
  }

  /** Every field an event does not own survives it unchanged. */
  lemma FieldsSurvive(s: CallState, e: Relayed)
    ensures !MayChangeIncoming(e) ==> Receive(s, e).0.incoming == s.incoming
    ensures !MayChangeActive(e) ==> Receive(s, e).0.activeCall == s.activeCall
    ensures !MayChangeOutgoing(e) ==> Receive(s, e).0.outgoing == s.outgoing
  {
  }

  /** `call:incoming`, `call:accepted` and `call:outgoing` store the payload
      in their own field; the last two open the call page. */
  lemma StoringEvents(s: CallState, data: Payload)
    ensures Receive(s, CallIncoming(data)) == (s.(incoming := Some(data)), [])
    ensures Receive(s, CallAccepted(data)).0.activeCall == Some(data)
    ensures Receive(s, CallAccepted(data)).1 == [Navigate(CallPath(data.callId))]
    ensures Receive(s, CallOutgoing(data)).0.outgoing == Some(data)
    ensures Receive(s, CallOutgoing(data)).1 == [Navigate(CallPath(data.callId))]
  {
  }

  /** After any terminal event nothing is ringing and no call is active; only
      `call:ended` also drops `outgoing`, and `call:canceled` stays on the
      current page. */
  lemma TerminalEventsClear(s: CallState, e: Relayed)
    requires IsTerminal(e)
    ensures Receive(s, e).0.incoming == None && Receive(s, e).0.activeCall == None
    ensures Receive(s, e).0.outgoing == if e.CallEnded? then None else s.outgoing
    ensures Receive(s, e).1 == if e.CallCanceled? then [] else [Navigate(HomePath)]
  {
  }

  /** Terminal events are idempotent: a repeated one leaves the record as the
      first left it. */
  lemma TerminalIdempotent(s: CallState, e: Relayed, again: Payload)
    requires IsTerminal(e)
    ensures Receive(Receive(s, e).0, e).0 == Receive(s, e).0
    ensures Receive(Receive(s, e).0, e.(data := again)).0 == Receive(s, e).0
  {
  }

  /** Whatever happened before, `call:ended` leaves the initial record. */
  lemma EndedResets(s: CallState, data: Payload)
    ensures Receive(s, CallEnded(data)).0 == Cleared
    ensures Receive(s, CallEnded(data)).0 == Receive(Cleared, CallEnded(data)).0
  {
  }

  /** Folds a sequence of relayed events, collecting their navigations. */
  function ReceiveAll(s: CallState, es: seq<Relayed>): (r: (CallState, seq<Effect>))
    ensures |r.1| <= |es|
    decreases |es|
  {
    if |es| == 0 then (s, [])
    else
      var first := Receive(s, es[0]);
      var rest := ReceiveAll(first.0, es[1..]);
      (rest.0, first.1 + rest.1)
  }

  /** Once `call:ended` has arrived, the record no longer depends on anything
      that came before it. */
  lemma {:induction false} EndedForgetsHistory(s: CallState, t: CallState, data: Payload, es: seq<Relayed>)
    ensures ReceiveAll(s, [CallEnded(data)] + es).0 == ReceiveAll(t, [CallEnded(data)] + es).0
  {
    var xs := [CallEnded(data)] + es;
    assert xs[1..] == es;
  }

  /** The one-shot emit helpers of the provider. */
  function RequestCall(from: string, to: string): (e: Effect)
    ensures e.Emit? && e.event == "call:request"
    ensures e.payload.Keys == {"from", "to"}
    ensures e.payload["from"] == Some(from) && e.payload["to"] == Some(to)
  {
    Emit("call:request", map["from" := Some(from), "to" := Some(to)])
  }

  /** The four helpers that send only a call id: `acceptCall`, `rejectCall`,
      `cancelCall` and `endCall`. */
  datatype CallAction = Accept | Reject | Cancel | End

  function EventOf(a: CallAction): string {
    match a
    case Accept => "call:accept"
    case Reject => "call:reject"
    case Cancel => "call:cancel"
    case End => "call:end"
  }

  /** The emit of one call-id helper. The call page's hang-up button sends
      `cancelCall` while nobody else is in the room and `endCall` otherwise. */
  function SendCallId(a: CallAction, callId: string): (e: Effect)
    ensures e.Emit? && e.event == EventOf(a)
    ensures e.payload.Keys == {"callId"} && e.payload["callId"] == Some(callId)
  {
    Emit(EventOf(a), map["callId" := Some(callId)])
  }

  /** The four helpers never send the same message for different actions or
      call ids, and none of them can be mistaken for a call request. */
  lemma SendCallIdInjective(a: CallAction, x: string, b: CallAction, y: string, from: string, to: string)
    ensures SendCallId(a, x) == SendCallId(b, y) ==> a == b && x == y
    ensures SendCallId(a, x) != RequestCall(from, to)
  {
  }
}

=== FILE: speaker.dfy ===
/**
  Active-speaker detection, the same in both hooks. Every `volume-indicator` report
  is a list of `{uid, level}`; each entry louder than the threshold makes its
  uid the active speaker and schedules a reset to "nobody" one second later.
  The resets are never cancelled, so an earlier speaker's reset also clears a
  later speaker, and talking on does not push a pending reset back.
 */
module SpeakerDetection {
  import opened Values

  /** One entry of a report. Levels are the engine's 0-100 scale. */
  datatype Volume = Volume(uid: Uid, level: real)

  /** `activeSpeaker`, the due times of the pending resets in scheduling
      order, and the current time in milliseconds. */
  datatype Speaker = Speaker(active: Option<Uid>, resets: seq<nat>, clock: nat)

  const Quiet := Speaker(None, [], 0)

  /** Strictly above this level an entry counts as speaking. */
  const SpeakingLevel: real := 10.0

  /** Milliseconds until a scheduled reset fires. */
  const ClearDelay: nat := 1000

  predicate Loud(v: Volume) {
    v.level > SpeakingLevel
  }

  /** The uid of the last loud entry, read from the back. */
  function LastLoud(vs: seq<Volume>): Option<Uid>
    decreases |vs|
  {
    if |vs| == 0 then None
    else if Loud(vs[|vs| - 1]) then Some(vs[|vs| - 1].uid)
    else LastLoud(vs[..|vs| - 1])
  }

  /** How many entries are loud. */
  function LoudCount(vs: seq<Volume>): (n: nat)
    ensures n <= |vs|
    decreases |vs|
  {
    if |vs| == 0 then 0
    else LoudCount(vs[..|vs| - 1]) + if Loud(vs[|vs| - 1]) then 1 else 0
  }

  function Repeat(d: nat, n: nat): (r: seq<nat>)
    ensures |r| == n && forall k :: 0 <= k < n ==> r[k] == d
  {
    seq(n, _ => d)
  }

  /** What one report does, stated over the whole report at once: the last
      loud uid becomes active, and one reset per loud entry is scheduled. */
  function Report(s: Speaker, vs: seq<Volume>): Speaker {
    s.(active := if LastLoud(vs).Some? then LastLoud(vs) else s.active,
       resets := s.resets + Repeat(s.clock + ClearDelay, LoudCount(vs)))
  }

  /** The `volume-indicator` handler, entry by entry as `forEach` runs it. */
  method HandleVolumes(s: Speaker, vs: seq<Volume>) returns (r: Speaker)
    ensures r == Report(s, vs)
  {
    r := s;
    var i := 0;
    while i < |vs|
      invariant 0 <= i <= |vs|
      invariant r == Report(s, vs[..i])
    {
      assert vs[..i + 1][..i] == vs[..i];
      if vs[i].level > SpeakingLevel {
        r := r.(active := Some(vs[i].uid), resets := r.resets + [s.clock + ClearDelay]);
      }
      i := i + 1;
    }
    assert vs[..|vs|] == vs;
  }

  /** The resets still pending after `now`, in order. */
  function Pending(ts: seq<nat>, now: nat): (r: seq<nat>)
    ensures |r| <= |ts|
    ensures forall k :: 0 <= k < |r| ==> r[k] > now
    decreases |ts|
  {
    if |ts| == 0 then []
    else (if ts[0] > now then [ts[0]] else []) + Pending(ts[1..], now)
  }

  /** Some reset is due by `now`. */
  predicate AnyDue(ts: seq<nat>, now: nat) {
    exists k :: 0 <= k < |ts| && ts[k] <= now
  }

  /** Let `dt` milliseconds pass: every reset due by then fires, and any firing
      clears the active speaker. */
  function Elapse(s: Speaker, dt: nat): (r: Speaker)
    ensures r.clock == s.clock + dt
    ensures forall k :: 0 <= k < |r.resets| ==> r.resets[k] > r.clock
  {
    var now := s.clock + dt;
    Speaker(if AnyDue(s.resets, now) then None else s.active, Pending(s.resets, now), now)
  }

  /** Entry `i` is loud and nothing after it is. */
  predicate IsLastLoud(vs: seq<Volume>, i: int) {
    0 <= i < |vs| && Loud(vs[i]) && forall j :: i < j < |vs| ==> !Loud(vs[j])
  }

  /** Where the last loud uid sits: loud, and nothing after it is loud. An
      empty answer means no entry is loud. */
  lemma {:induction false} LastLoudIsLast(vs: seq<Volume>)
    ensures LastLoud(vs).None? <==> forall k :: 0 <= k < |vs| ==> !Loud(vs[k])
    ensures LastLoud(vs).Some? ==> exists i :: IsLastLoud(vs, i) && vs[i].uid == LastLoud(vs).value
    decreases |vs|
  {
    if |vs| > 0 {
      var init := vs[..|vs| - 1];
      LastLoudIsLast(init);
      if !Loud(vs[|vs| - 1]) {
        if LastLoud(init).Some? {
          var i :| IsLastLoud(init, i) && init[i].uid == LastLoud(init).value;
          assert vs[i] == init[i];
          assert IsLastLoud(vs, i) by {
            forall j | i < j < |vs|
              ensures !Loud(vs[j])
            {
              if j < |vs| - 1 {
                assert vs[j] == init[j];
              }
            }
          }
        } else {
          forall k | 0 <= k < |vs|
            ensures !Loud(vs[k])
          {
            if k < |vs| - 1 {
              assert vs[k] == init[k];
            }
          }
        }
      }
    }
  }

  lemma {:induction false} QuietCountsZero(vs: seq<Volume>)
    requires forall k :: 0 <= k < |vs| ==> !Loud(vs[k])
    ensures LoudCount(vs) == 0
    decreases |vs|
  {
    if |vs| > 0 {
      QuietCountsZero(vs[..|vs| - 1]);
    }
  }

  /** A report in which nobody is above the threshold changes nothing. */
  lemma QuietReportIgnored(s: Speaker, vs: seq<Volume>)
    requires forall k :: 0 <= k < |vs| ==> !Loud(vs[k])
    ensures Report(s, vs) == s
  {
    LastLoudIsLast(vs);
    QuietCountsZero(vs);
  }

  /** A report with a loud entry makes its last loud uid the speaker. */
  lemma LoudReportSetsSpeaker(s: Speaker, vs: seq<Volume>, i: nat)
    requires IsLastLoud(vs, i)
    ensures Report(s, vs).active == Some(vs[i].uid)
    ensures |Report(s, vs).resets| > |s.resets|
  {
    LastLoudIsLast(vs);
    if LoudCount(vs) == 0 {
      LoudCountsSome(vs, i);
    }
  }

  lemma {:induction false} LoudCountsSome(vs: seq<Volume>, i: nat)
    requires i < |vs| && Loud(vs[i])
    ensures LoudCount(vs) > 0
    decreases |vs|
  {
    if i < |vs| - 1 {
      assert vs[..|vs| - 1][i] == vs[i];
      LoudCountsSome(vs[..|vs| - 1], i);
    }
  }

  /** The resets are only ever added to: reports keep every pending one. */
  lemma ReportKeepsResets(s: Speaker, vs: seq<Volume>)
    ensures var r := Report(s, vs);
      |r.resets| >= |s.resets| && r.resets[..|s.resets|] == s.resets
      && forall k :: |s.resets| <= k < |r.resets| ==> r.resets[k] == s.clock + ClearDelay
  {
  }

  /** Talking on does not extend a pending reset: when a reset is due within
      `dt`, the speaker is gone after `dt`, whatever was reported meanwhile. */
  lemma ReportDoesNotExtend(s: Speaker, vs: seq<Volume>, k: nat, dt: nat)
    requires k < |s.resets| && s.resets[k] <= s.clock + dt
    ensures Elapse(Report(s, vs), dt).active == None
  {
    var r := Report(s, vs);
    assert r.resets[k] == s.resets[k];
  }

  /** Pending resets are all within one delay of now, and a shown speaker
      always has one pending. */
  predicate SpeakerInv(s: Speaker) {
    && (s.active.Some? ==> |s.resets| > 0)
    && forall k :: 0 <= k < |s.resets| ==> s.resets[k] <= s.clock + ClearDelay
  }

  /** With nothing due, every reset stays pending. */
  lemma {:induction false} NothingDueKeepsAll(ts: seq<nat>, now: nat)
    requires !AnyDue(ts, now)
    ensures Pending(ts, now) == ts
    decreases |ts|
  {
    if |ts| > 0 {
      assert ts[0] > now;
      assert !AnyDue(ts[1..], now) by {
        forall k | 0 <= k < |ts| - 1
          ensures ts[1..][k] > now
        {
          assert ts[1..][k] == ts[k + 1];
        }
      }
      NothingDueKeepsAll(ts[1..], now);
      assert Pending(ts, now) == [ts[0]] + ts[1..];
    }
  }

  /** Firing only removes resets. */
  lemma {:induction false} PendingSubset(ts: seq<nat>, now: nat, x: nat)
    requires x in Pending(ts, now)
    ensures x in ts
    decreases |ts|
  {
    var head := if ts[0] > now then [ts[0]] else [];
    assert Pending(ts, now) == head + Pending(ts[1..], now);
    if x !in head {
      PendingSubset(ts[1..], now, x);
    }
  }

  lemma ReportKeepsInv(s: Speaker, vs: seq<Volume>)
    requires SpeakerInv(s)
    ensures SpeakerInv(Report(s, vs))
  {
    LastLoudIsLast(vs);
    if LastLoud(vs).Some? {
      var i :| IsLastLoud(vs, i) && vs[i].uid == LastLoud(vs).value;
      LoudCountsSome(vs, i);
    }
  }

  lemma ElapseKeepsInv(s: Speaker, dt: nat)
    requires SpeakerInv(s)
    ensures SpeakerInv(Elapse(s, dt))
  {
    var r := Elapse(s, dt);
    if !AnyDue(s.resets, r.clock) {
      NothingDueKeepsAll(s.resets, r.clock);
    }
    forall k | 0 <= k < |r.resets|
      ensures r.resets[k] <= r.clock + ClearDelay
    {
      PendingSubset(s.resets, r.clock, r.resets[k]);
    }
  }

  /** Once a full delay passes without a report, nobody is shown speaking. */
  lemma ClearedWithinDelay(s: Speaker, dt: nat)
    requires SpeakerInv(s) && dt >= ClearDelay
    ensures Elapse(s, dt).active == None
  {
    if s.active.Some? {
      assert s.resets[0] <= s.clock + dt;
    }
  }

  lemma QuietInv()
    ensures SpeakerInv(Quiet) && Quiet.active == None
  {
  }
}

=== FILE: timer.dfy ===
/**
  The call-duration timer of both hooks: an effect on `[remoteUsers.length,
  joined]` that starts a one-second interval while the local user is joined
  with somebody else in the room, and is meant to stop it and reset the
  displayed duration otherwise.

  React runs the previous run's cleanup before every re-run of an effect. The
  cleanup here clears the interval and nulls the ref, so by the time the body
  looks at the ref it is always null: the body's stop-and-reset branch is dead
  and the duration is never put back to zero. `Commit` models the effect as
  written; `CommitFixed` is the evidently intended timer, whose only stop is
  the body's own branch.
 */
module CallTimer {
  import opened Values

  /** `callTimerRef.current != null`, `callDuration`, and the dependency values
      of the last run (`None` before the first render). */
  datatype Timer = Timer(running: bool, duration: nat, deps: Option<(bool, nat)>)

  const Mounted := Timer(false, 0, None)

  /** The condition under which a call is in progress. */
  predicate Active(joined: bool, count: nat) {
    joined && count > 0
  }

  /** The effect body: start the interval if none runs, or stop it and reset
      the duration if one runs. */
  function Body(t: Timer, joined: bool, count: nat): (r: Timer)
    ensures r.running <==> Active(joined, count)
    ensures Active(joined, count) ==> r.duration == t.duration
    ensures !Active(joined, count) ==> r.duration == if t.running then 0 else t.duration
  {
    if Active(joined, count) then
      if !t.running then t.(running := true) else t
    else if t.running then t.(running := false, duration := 0)
    else t
  }

  /** The effect cleanup: clear the interval, leave the duration alone. */
  function Cleanup(t: Timer): (r: Timer)
    ensures !r.running && r.duration == t.duration && r.deps == t.deps
  {
    t.(running := false)
  }

  /** One second of a running interval. */
  function Tick(t: Timer): (r: Timer)
    ensures r.duration == if t.running then t.duration + 1 else t.duration
    ensures r.running == t.running && r.deps == t.deps
  {
    if t.running then t.(duration := t.duration + 1) else t
  }

  /** A render as written: when the dependencies changed, the previous run's
      cleanup (if there was a previous run) and then the body. */
  function Commit(t: Timer, joined: bool, count: nat): (r: Timer)
    ensures r.deps == Some((joined, count))
    ensures t.deps != Some((joined, count)) ==> (r.running <==> Active(joined, count))
  {
    if t.deps == Some((joined, count)) then t
    else
      var before := if t.deps.Some? then Cleanup(t) else t;
      Body(before, joined, count).(deps := Some((joined, count)))
  }

  /** A render of the intended timer: the body alone decides. */
  function CommitFixed(t: Timer, joined: bool, count: nat): (r: Timer)
    ensures r.deps == Some((joined, count))
    ensures t.deps != Some((joined, count)) ==> (r.running <==> Active(joined, count))
  {
    if t.deps == Some((joined, count)) then t
    else Body(t, joined, count).(deps := Some((joined, count)))
  }

  /** The interval runs exactly when the last rendered dependencies say a call
      is in progress. */
  predicate Agrees(t: Timer) {
    t.running <==> (t.deps.Some? && Active(t.deps.value.0, t.deps.value.1))
  }

  /** What the intended timer keeps: it agrees with its dependencies and shows
      zero whenever no call is in progress. */
  predicate FixedInv(t: Timer) {
    Agrees(t) && (!t.running ==> t.duration == 0)
  }

  datatype TimerEvent = Render(joined: bool, count: nat) | OneSecond

  function Run(t: Timer, es: seq<TimerEvent>): Timer
    decreases |es|
  {
    if |es| == 0 then t
    else
      var next := match es[0]
        case Render(j, c) => Commit(t, j, c)
        case OneSecond => Tick(t);
      Run(next, es[1..])
  }

  function RunFixed(t: Timer, es: seq<TimerEvent>): Timer
    decreases |es|
  {
    if |es| == 0 then t
    else
      var next := match es[0]
        case Render(j, c) => CommitFixed(t, j, c)
        case OneSecond => Tick(t);
      RunFixed(next, es[1..])
  }

  /** As written, no render changes the duration: the reset never fires. */
  lemma CommitKeepsDuration(t: Timer, joined: bool, count: nat)
    requires Agrees(t)
    ensures Commit(t, joined, count).duration == t.duration
    ensures Agrees(Commit(t, joined, count))
  {
  }

  /** As written, over any run the duration never goes down. */
  lemma {:induction false} RunNeverResets(t: Timer, es: seq<TimerEvent>)
    requires Agrees(t)
    ensures Run(t, es).duration >= t.duration
    ensures Agrees(Run(t, es))
    decreases |es|
  {
    if |es| > 0 {
      var next := match es[0]
        case Render(j, c) => Commit(t, j, c)
        case OneSecond => Tick(t);
      if es[0].Render? {
        CommitKeepsDuration(t, es[0].joined, es[0].count);
      }
      RunNeverResets(next, es[1..]);
    }
  }

  /** The defect: a three-second call whose only peer leaves still shows three
      seconds. */
  lemma PeerLeavesDurationStays()
    ensures var t := Run(Mounted, [Render(true, 0), Render(true, 1), OneSecond, OneSecond, OneSecond, Render(true, 0)]);
      !t.running && t.duration == 3
  {
    var t0 := Commit(Mounted, true, 0);
    var t1 := Commit(t0, true, 1);
    assert t1.running && t1.duration == 0;
    var t4 := Tick(Tick(Tick(t1)));
    assert t4.duration == 3;
    var es := [Render(true, 0), Render(true, 1), OneSecond, OneSecond, OneSecond, Render(true, 0)];
    assert Run(Mounted, es) == Run(t0, es[1..]);
    assert es[1..][1..] == [OneSecond, OneSecond, OneSecond, Render(true, 0)];
    assert es[1..][1..][1..][1..][1..] == [Render(true, 0)];
  }

  /** The same call on the intended timer shows zero once the peer leaves. */
  lemma PeerLeavesDurationResetsFixed()
    ensures var t := RunFixed(Mounted, [Render(true, 0), Render(true, 1), OneSecond, OneSecond, OneSecond, Render(true, 0)]);
      !t.running && t.duration == 0
  {
    var es := [Render(true, 0), Render(true, 1), OneSecond, OneSecond, OneSecond, Render(true, 0)];
    MountedInv();
    RunFixedKeepsInv(Mounted, es);
    assert RunFixed(Mounted, es).deps == Some((true, 0)) by {
      var t0 := CommitFixed(Mounted, true, 0);
      var t4 := Tick(Tick(Tick(CommitFixed(t0, true, 1))));
      assert RunFixed(Mounted, es) == RunFixed(t0, es[1..]);
      assert es[1..][1..] == [OneSecond, OneSecond, OneSecond, Render(true, 0)];
      assert es[1..][1..][1..][1..][1..] == [Render(true, 0)];
      assert RunFixed(Mounted, es) == CommitFixed(t4, true, 0);
    }
  }

  /** The intended timer keeps its invariant under every render and tick. */
  lemma FixedStepKeepsInv(t: Timer, e: TimerEvent)
    requires FixedInv(t)
    ensures e.Render? ==> FixedInv(CommitFixed(t, e.joined, e.count))
    ensures e.OneSecond? ==> FixedInv(Tick(t))
  {
  }

  /** Over any run of the intended timer, the display is zero whenever no call
      is in progress. */
  lemma {:induction false} RunFixedKeepsInv(t: Timer, es: seq<TimerEvent>)
    requires FixedInv(t)
    ensures FixedInv(RunFixed(t, es))
    decreases |es|
  {
    if |es| > 0 {
      var next := match es[0]
        case Render(j, c) => CommitFixed(t, j, c)
        case OneSecond => Tick(t);
      FixedStepKeepsInv(t, es[0]);
      RunFixedKeepsInv(next, es[1..]);
    }
  }

  /** The intended timer resets exactly when the call stops being in progress,
      and otherwise keeps counting across renders (a second peer joining does
      not restart the count). */
  lemma FixedCommitResets(t: Timer, joined: bool, count: nat)
    requires FixedInv(t)
    ensures CommitFixed(t, joined, count).duration == if Active(joined, count) then t.duration else 0
  {
  }

  lemma MountedInv()
    ensures FixedInv(Mounted) && Agrees(Mounted)
  {
  }
}

=== FILE: values.dfy ===
/**
  Values shared by every part of the model: optional values, the engine's
  participant ids, media kinds, local track names, signalling payloads and the
  side effects (socket emits, navigation, media-engine calls) that handlers
  return instead of performing them.
 */
module Values {

  /** `null` / `undefined` in the program. */
  datatype Option<+T> = None | Some(value: T)

  /** A media-engine participant id: a number, or a string for string-uid rooms. */
  datatype Uid = NumUid(n: nat) | TextUid(s: string)

  /** The `mediaType` argument of the engine's publish events. */
  datatype Kind = Audio | Video

  /** The tracks the local participant can hold. */
  datatype LocalTrack = Mic | Camera | ScreenVideo | ScreenAudio

  /** A signalling payload as relayed by the server. Only `callId` and
      `callerVirtualNumber` are read by the client; everything else is carried
      along untouched in `rest`. */
  datatype Payload = Payload(callId: string, callerVirtualNumber: Option<string>, rest: map<string, string>)

  /** A side effect a handler asks for, in the order it asks for it. */
  datatype Effect =
    | Emit(event: string, payload: map<string, Option<string>>)
    | Navigate(path: string)
    | CreateClient
    | JoinRoom(channel: string)
    | LeaveRoom
    | Publish(tracks: seq<LocalTrack>)
    | Unpublish(tracks: seq<LocalTrack>)
    | Release(tracks: seq<LocalTrack>)
    | SetTrackEnabled(track: LocalTrack, on: bool)
    | PlayLocal(element: string)
    | Subscribe(uid: Uid, kind: Kind)
    | PlayRemoteVideo(uid: Uid, element: string)
    | PlayRemoteAudio(uid: Uid)

  /** The call page a call id navigates to. */
  function CallPath(callId: string): (p: string)
    ensures |p| == |"/user/call/"| + |callId|
    ensures p[|"/user/call/"|..] == callId
  {
    "/user/call/" + callId
  }

  const HomePath: string := "/user/home"

  predicate IsDigit(c: char) {
    '0' <= c <= '9'
  }

  function DigitChar(d: nat): (c: char)
    requires d < 10
    ensures IsDigit(c)
  {
    ['0', '1', '2', '3', '4', '5', '6', '7', '8', '9'][d]
  }

  function DigitValue(c: char): (d: nat)
    requires IsDigit(c)
    ensures d < 10 && DigitChar(d) == c
  {
    if c == '0' then 0 else if c == '1' then 1 else if c == '2' then 2
    else if c == '3' then 3 else if c == '4' then 4 else if c == '5' then 5
    else if c == '6' then 6 else if c == '7' then 7 else if c == '8' then 8
    else 9
  }

  /** Decimal rendering of a number, as a template literal `${n}` writes it. */
  function NatToString(n: nat): (s: string)
    ensures |s| > 0
    ensures forall i :: 0 <= i < |s| ==> IsDigit(s[i])
  {
    if n < 10 then [DigitChar(n)] else NatToString(n / 10) + [DigitChar(n % 10)]
  }

  /** Reads back a string of decimal digits. */
  function ParseNat(s: string): nat
    requires forall i :: 0 <= i < |s| ==> IsDigit(s[i])
  {
    if |s| == 0 then 0 else 10 * ParseNat(s[..|s| - 1]) + DigitValue(s[|s| - 1])
  }

  /** Rendering a number and reading it back gives the number again, so
      distinct numeric uids render to distinct text. */
  lemma {:induction false} ParseNatToString(n: nat)
    ensures ParseNat(NatToString(n)) == n
  {
    var s := NatToString(n);
    if n >= 10 {
      ParseNatToString(n / 10);
      assert s[..|s| - 1] == NatToString(n / 10);
    }
  }

  /** `uid.toString()`. */
  function UidText(u: Uid): (s: string)
    ensures u.NumUid? ==> forall i :: 0 <= i < |s| ==> IsDigit(s[i])
    ensures u.TextUid? ==> s == u.s
  {
    match u
    case NumUid(n) => NatToString(n)
    case TextUid(t) => t
  }

  /** `s.startsWith(p)`. */
  predicate StartsWith(s: string, p: string) {
    |p| <= |s| && s[..|p|] == p
  }

  /** `s.includes(sub)`: some position of `s` starts a copy of `sub`. */
  predicate Contains(s: string, sub: string)
    decreases |s|
  {
    StartsWith(s, sub) || (|s| > 0 && Contains(s[1..], sub))
  }

  /** `sub` occurs in `s` starting at position `i`. */
  predicate OccursAt(s: string, sub: string, i: int) {
    0 <= i && i + |sub| <= |s| && s[i..i + |sub|] == sub
  }

  /** `Contains` agrees with the positional reading of `includes`. */
  lemma {:induction false} ContainsAt(s: string, sub: string)
    ensures Contains(s, sub) <==> exists i :: OccursAt(s, sub, i)
    decreases |s|
  {
    if StartsWith(s, sub) {
      assert OccursAt(s, sub, 0);
    } else if |s| > 0 {
      ContainsAt(s[1..], sub);
      if Contains(s[1..], sub) {
        var i :| OccursAt(s[1..], sub, i);
        assert OccursAt(s, sub, i + 1);
      }
      if exists i :: OccursAt(s, sub, i) {
        var i :| OccursAt(s, sub, i);
        assert i != 0;
        assert OccursAt(s[1..], sub, i - 1);
      }
    }
  }

  /** A string of digits never contains a non-empty string with a non-digit. */
  lemma {:induction false} DigitsContainNoLetter(s: string, sub: string, k: nat)
    requires forall i :: 0 <= i < |s| ==> IsDigit(s[i])
    requires k < |sub| && !IsDigit(sub[k])
    ensures !Contains(s, sub)
    decreases |s|
  {
    if |s| > 0 {
      DigitsContainNoLetter(s[1..], sub, k);
    }
  }
}
